=== FILE: README.md ===
# RxModal, modelled in Dafny

RxModal presents UIKit modal controllers as RxSwift sequences. Each wrapper works the same way. A subscription creates a coordinator. The coordinator presents a controller (a picker, a composer, an alert, a web authentication session). The controller's delegate callbacks become the sequence's events. When the subscription ends, the controller is dismissed. This project models that core as pure functions over immutable data.

- **Streams** are finite event lists `seq<Event<T>>` with `Event = Next | Error | Completed`. `Conforms(kind, s)` gives the shape of a Completable, Single, Maybe or Observable. `Merge`, `FlatMap`, `AndThen` and `AsSingle` give RxSwift's operators over such lists (`Rx`).
- **The coordinator** (`Coordinator`) has `Present`, `Dispose` and the `using` wrappers. One subscription is a `Run`: the events the subscriber observes, plus an effect log of what was asked of UIKit (built, shown, subscribed, dismissed). A lifecycle automaton (`Phase`, `Step`, `Replay`) is the reference the wrappers are proved against. The older, non-generic coordinator is `LegacyDispose` and `LegacyPresentUsing`.
- **The authorization gate** `require(_:in:)` is in `Authorization`.
- **Dialogs and actions**:
  - `Dialogs` and `LegacyDialogs` hold both generations of `Dialog` and `DialogAction`.
  - `Alerts` covers UIAlertController assembly and the `alert`, `actionSheet` and `present` entry points.
- **The single-shot wrappers**:
  - `WebAuth` covers ASWebAuthenticationSession.
  - `MediaPicker` covers MPMediaPickerController and the media library authorization status.
  - `MessageComposing` and `MailComposing` cover the two composers.
- **Small helpers**: the `..` operator (`Internals`) and the `rxModalDescription` tables (`Descriptions`).

Whatever the platform decides is a parameter:
- what the presenter resolves to, as `Option<Anchor>`;
- whether the controller is being dismissed, and what presents it (`ControllerView`);
- `canSendText` and `canSendMail`;
- the system's authorization status and the prompt's answer;
- which delegate callback fires, if any;
- the alert tap and the text fields' contents.

## Model

| member | source | states |
|---|---|---|
| Coordinator.Present | Sources/RxModalCoordinator.swift:19-25 | With no anchor, present fails with missingPresenter before the controller is built: no effects, nothing stored. Otherwise the coordinator keeps the controller, built once, and the same controller is shown on the anchor exactly once, animated. |
| Coordinator.PresentFollowsLifecycle | RxModalCoordinator.swift:16-22 | The older present, like the generic one, leaves the lifecycle idle and stores nothing without a presenter. Otherwise it reaches on-screen, and the controller on screen is the one the coordinator keeps. |
| Coordinator.PresentedController | Sources/RxModalCoordinator.swift:13-15 | The `viewController` accessor force-unwraps, so it may only be used once a controller is stored, and it returns that controller. |
| Coordinator.Dispose | Sources/RxModalCoordinator.swift:27-32 | Needs a stored controller. It issues at most one dismissal: exactly one, animated and to the presenting controller, when the controller is not being dismissed and something presents it; otherwise none. |
| Coordinator.LegacyDispose | RxModalCoordinator.swift:24-29 | With no stored controller, nothing happens; otherwise it behaves as the generic dispose. |
| Coordinator.DisposeTwiceDismissesOnce | Sources/RxModalCoordinator.swift:27-32 | Disposing again while the first dismissal is in progress adds nothing, so both generations dismiss at most once in total. |
| Coordinator.PresentUsing | Sources/RxModalCoordinator.swift:45-110 | Each subscription presents with a fresh coordinator. A throw is the sequence's only event, with no effects and no sequence built. Otherwise the events are exactly the sequence's. The effects are built, shown, subscribed, then what dispose issues. The trait's shape is kept. A value reaches the subscriber only if there was an anchor. |
| Coordinator.LegacyPresentUsing | RxModalCoordinator.swift:36-101 | The older wrappers keep the trait's shape. Their behaviour is pinned down through LegacyPresentUsingAgrees. |
| Coordinator.LegacyPresentUsingAgrees | RxModalCoordinator.swift:41-47 | The older wrappers dispose only a coordinator that presented. Their nil-safe dispose therefore never matters, and they equal the generic wrappers on every input. |
| Coordinator.PresentUsingFollowsLifecycle | Sources/RxModalCoordinator.swift:50-56 | Every wrapper's effect log is a valid run of the lifecycle automaton. It stays idle without an anchor. Otherwise it ends observed, or being dismissed when dispose issued a dismissal. |
| Coordinator.LifecycleShowsAndDismissesOnce | Sources/RxModalCoordinator.swift:19-32 | Any log the lifecycle accepts from idle shows the controller at most once and dismisses it at most once. |
| Coordinator.PresentUsingShowsOnce | Sources/RxModalCoordinator.swift:50-56 | With an anchor, each subscription shows its controller exactly once. |
| Coordinator.PresentationLogFollowsLifecycle | Sources/RxModalCoordinator.swift:19-32 | A log of built, shown, subscribed and then dispose's effects runs the lifecycle from idle to being dismissed when dispose asked for a dismissal, and to observed otherwise. It shows the controller once and dismisses it as often as dispose asked, at most once. |
| Authorization.Gate | Sources/Rx+AuthorizationStatus.swift:15-20 | The flatMap closure subscribes to the wrapped sequence iff the status is in the expected list, and then yields it unchanged. Any other status yields authorizationDenied of the status type alone. |
| Authorization.GateThen | Sources/Rx+AuthorizationStatus.swift:28-33 | The Single's flatMap, carrying the closure's report: its events are the Single flatMap of the closure's events. The wrapped sequence is subscribed iff the status succeeded and the closure subscribed for that value. |
| Authorization.Require | Sources/Rx+AuthorizationStatus.swift:14-47 | The Completable, Single and Maybe overloads keep the trait's shape. The wrapped sequence is subscribed iff the status succeeds with an expected value, and then it passes through unchanged. An unexpected status fails with authorizationDenied of the status type. A failing status forwards its error. A pending status emits nothing. |
| Authorization.RequireSameDecision | Rx+AuthorizationStatus.swift:12-41 | The Completable, Single and Maybe overloads gate identically: for the same status and expected list they subscribe alike, and otherwise they report the same failure, or nothing yet. |
| Authorization.RequireObservable | Sources/Rx+AuthorizationStatus.swift:53-60 | The Observable overload, through Observable's flatMap, yields a well-formed stream. |
| Authorization.RequireObservableAgrees | Rx+AuthorizationStatus.swift:45-52 | The Observable overload, which lifts the status to an Observable first, gives exactly the events of the other overloads. This holds for the identical overload at Sources/Rx+AuthorizationStatus.swift:53-60 too. |
| Authorization.RequireNothingDenies | Sources/Rx+AuthorizationStatus.swift:16 | With an empty expected list, a successful status is always denied, and the wrapped sequence is never subscribed. |
| Authorization.RequireMembershipOnly | Sources/Rx+AuthorizationStatus.swift:29 | Two expected lists with the same members, in any order and with any duplicates, give the same outcome. |
| Dialogs.MakeDialog | Sources/Dialogs/Dialog.swift:17-24 | A dialog needs at least one action. Title, message, text fields and actions are stored unchanged and in order. |
| Dialogs.MakeAction | Sources/Dialogs/Dialog.swift:84-89 | The action stores its arguments, and `isPreferred` defaults to false. |
| Dialogs.WithStyle | Sources/Dialogs/Dialog.swift:91-98 | The new style is set, and title, onNext and isPreferred are kept. |
| Dialogs.Preferred | Sources/Dialogs/Dialog.swift:186-193 | isPreferred becomes true, and title, style and onNext are kept. |
| Dialogs.ActionUpdatesCompose | Sources/Dialogs/Dialog.swift:91-98 | preferred is idempotent. The last withStyle wins, restyling with the current style changes nothing, and the two updates commute. |
| Dialogs.FlatMapAction | Sources/Dialogs/Dialog.swift:102-112 | Each factory sets the named style and the title and is not preferred; on every tap it yields the closure's sequence for the text fields. |
| Dialogs.FlatMapToAction | Sources/Dialogs/Dialog.swift:116-126 | On every tap it yields the given sequence, whatever the text fields. |
| Dialogs.MapAction | Sources/Dialogs/Dialog.swift:130-140 | On every tap it yields exactly one value, the closure applied to the text fields, then completion. |
| Dialogs.MapToAction | Sources/Dialogs/Dialog.swift:144-154 | On every tap it yields exactly the given value, then completion. |
| Dialogs.ThrowAction | Sources/Dialogs/Dialog.swift:158-168 | On every tap it yields the error alone. |
| Dialogs.NoValueAction | Sources/Dialogs/Dialog.swift:172-182 | On every tap it completes at once. |
| Dialogs.FactoriesAreLawful | Sources/Dialogs/Dialog.swift:130-193 | The map, mapTo, throw and no-value factories yield a sequence that follows RxSwift's event grammar on every tap, and withStyle and preferred keep that. |
| Dialogs.VoidFlatMapAction | Sources/Dialogs/Dialog.swift:196-209 | The Void overloads replace each value with `()` and keep the number of events, their kinds and their errors. |
| Dialogs.VoidFlatMapToAction | Sources/Dialogs/Dialog.swift:211-223 | The same, for a fixed sequence. |
| LegacyDialogs.MakeDialog | Dialogs/Dialog.swift:16-22 | The older dialog needs at least one action and stores its fields unchanged. |
| LegacyDialogs.MakeAction | Dialogs/Dialog.swift:37-42 | The older action stores its arguments, and isPreferred defaults to false. |
| LegacyDialogs.WithStyle | Dialogs/Dialog.swift:44-51 | Only the style changes, and the result reads as the newer withStyle of the upgraded action. |
| LegacyDialogs.Preferred | Dialogs/Dialog.swift:111-118 | Only isPreferred changes, to true, and the result reads as the newer preferred of the upgraded action. |
| LegacyDialogs.ActionUpdatesCompose | Dialogs/Dialog.swift:111-118 | preferred is idempotent and the last style wins. |
| LegacyDialogs.FlatMapToAction | Dialogs/Dialog.swift:55-65 | The action's fixed sequence is the given one, with the named style. |
| LegacyDialogs.MapToAction | Dialogs/Dialog.swift:69-79 | One value, then completion. |
| LegacyDialogs.ThrowAction | Dialogs/Dialog.swift:83-93 | The error alone. |
| LegacyDialogs.NoValueAction | Dialogs/Dialog.swift:97-107 | Immediate completion. |
| LegacyDialogs.Upgrade | Dialogs/Dialog.swift:30-42 | An older action reads as a newer one whose onNext ignores the text fields. |
| LegacyDialogs.GenerationsAgree | Dialogs/Dialog.swift:69-107 | The older mapTo, throw and no-value factories behave on every tap as the newer ones built the same way. |
| Alerts.AlertActionStyleOf | Dialogs/UIAlertController.swift:11-22 | The alert style maps back to the dialog style it came from. |
| Alerts.AlertActionStyleBijective | Dialogs/UIAlertController.swift:11-22 | The style mapping is one-to-one and onto: it has an inverse on both sides. |
| Alerts.MakeAlertAction | Dialogs/UIAlertController.swift:25-30 | The alert action keeps the title, maps the style and carries the dialog action's onNext. |
| Alerts.Tapped | Dialogs/UIAlertController.swift:26-29 | A tap sends exactly one inner sequence, onNext of the current text fields, then completes. |
| Alerts.AddTextFields | Dialogs/UIAlertController.swift:51-53 | One text field is appended per dialog text field, in order, and nothing else changes. |
| Alerts.AddActions | Dialogs/UIAlertController.swift:55-59 | One alert action is appended per dialog action, in order, and the earlier ones and every other field are kept. |
| Alerts.AddAction | Dialogs/UIAlertController.swift:55-62 | One step of the loop: the action's alert action is appended and everything else is kept. A flagged action becomes the preferred one, the one just appended; otherwise the preferred action is left as it was. |
| Alerts.AddActionsPreferred | Dialogs/UIAlertController.swift:60-62 | Every flagged action overwrites the choice, so the last flagged action is preferred. With none flagged, the preferred action is left as it was. |
| Alerts.MakeAlertController | Dialogs/UIAlertController.swift:34-66 | The controller has the dialog's title, message, the style's preferred style, its text fields, and one action per dialog action in order. A preferred action is set iff some action is flagged, and then it is the last flagged one. |
| Alerts.PresentDialog | Dialogs/UIAlertController.swift:119-129 | The controller is built from the dialog and shown on the anchor. No anchor gives missingPresenter. Without a tap the subscriber sees nothing. |
| Alerts.TapDeliversActionSequence | Dialogs/UIAlertController.swift:124-128 | The merged result of a tap is exactly the tapped action's sequence. |
| Alerts.PresentDialogShowsOnce | Dialogs/UIAlertController.swift:119-129 | With an anchor, the alert controller is shown exactly once, whatever the user does. |
| Alerts.PresentStyled | Dialogs/UIAlertController.swift:106-117 | Builds a Dialog first, so at least one action is needed, and presents it. No anchor gives missingPresenter. Otherwise the shown controller is the one built from that dialog: the given title, message and text fields, the actions in order, and the last flagged action preferred. A tap on an action delivers exactly that action's sequence, and no tap delivers nothing. |
| Alerts.PresentStyledShowsOnce | Dialogs/UIAlertController.swift:106-117 | With an anchor, the styled alert or action sheet is shown exactly once, whatever the user does. |
| Alerts.Alert | Dialogs/UIAlertController.swift:83-92 | No anchor gives missingPresenter. Otherwise the shown controller is built from the dialog with the alert style, and a tap delivers the tapped action's sequence. |
| Alerts.ActionSheet | Dialogs/UIAlertController.swift:94-104 | No anchor gives missingPresenter. Otherwise the shown controller is built from the dialog with the action-sheet style, and a tap delivers the tapped action's sequence. |
| Alerts.DeleteConfirmation | Dialogs/UIAlertController.swift:83-92 | A Cancel/Delete alert: tapping Delete yields "delete" then completion, and the alert is shown exactly once. |
| WebAuth.CompletionEvents | Sources/Other/ASWebAuthenticationSession.swift:50-59 | An error is the only event, even when a URL is present. No error and no URL fails with unsupported. Otherwise the URL, then completion. |
| WebAuth.CompletionSucceedsIff | Sources/Other/ASWebAuthenticationSession.swift:50-59 | The handler yields a value iff there is no error and there is a URL, and the value is that URL. |
| WebAuth.StartSession | Sources/Other/ASWebAuthenticationSession.swift:62-77 | The configuration runs first. A required window that is missing throws missingPresenter, and start is never reached. Otherwise start comes last and exactly once, after the context provider is set when a window is required. |
| WebAuth.WebAuthenticationSession | Sources/Other/ASWebAuthenticationSession.swift:15-31 | A throwing initializer is the only event, and the session is neither started nor cancelled. Otherwise the subscriber sees the handler's outcome. The session is configured and started as the initializer does it, and only then is the result subscribed. It is cancelled exactly once, at the end. |
| WebAuth.SessionStartsBeforeSubscribed | Sources/Other/ASWebAuthenticationSession.swift:21-29 | A subscription that gets past the initializer configures the session first, starts it exactly once, and subscribes to the result only after that start. |
| MediaPicker.MediaLibraryAuthorizationStatus | Sources/Pickers/MPMediaPickerController.swift:15-28 | A determined status is returned as is, with no prompt. notDetermined prompts, and the prompt's answer is the single value. |
| MediaPicker.PickerEvents | Sources/Pickers/MPMediaPickerController.swift:53-61 | Picking emits the collection and then completes. Cancelling emits an empty collection and then completes. Neither is an error. |
| MediaPicker.MakePicker | Sources/Pickers/MPMediaPickerController.swift:37-40 | The configuration runs before the delegate is set, so the coordinator is the delegate whatever the configuration did. The controller stays a media picker, and the settings are the configuration's. |
| MediaPicker.MediaPickerRun | Sources/Pickers/MPMediaPickerController.swift:35-45 | The picker is presented iff the status settles on authorized or restricted and there is an anchor. Any other settled status fails with authorizationDenied. A pending status emits nothing. When presented, the subscriber sees the delegate's outcome, and the effects are the picker built, shown on the anchor, subscribed, then what dispose issues. |
| MediaPicker.MediaPickerFollowsLifecycle | Sources/Pickers/MPMediaPickerController.swift:35-45 | Every subscription runs the coordinator's lifecycle. It stays idle unless the picker is presented. Then it shows the picker exactly once and ends observed, or being dismissed when dispose issued a dismissal. |
| MessageComposing.MessageFinish | Sources/Composers/MFMessageComposeViewController.swift:37-40 | Every result, cancelled and failed included, is a value followed by completion. |
| MessageComposing.MakeComposer | Sources/Composers/MFMessageComposeViewController.swift:21-24 | The delegate is assigned after the configuration and so always ends up being the coordinator. The controller stays a composer of its kind, and the settings are the configuration's. |
| MessageComposing.MessageComposer | Sources/Composers/MFMessageComposeViewController.swift:15-29 | When subscribed, a device that cannot send text fails with unsupported and nothing is presented. Otherwise the composer is presented and its result delivered. Effects happen iff it can send and there is an anchor, and then they are the composer built, shown on the anchor, subscribed, then what dispose issues. |
| MessageComposing.MessageComposerFollowsLifecycle | Sources/Composers/MFMessageComposeViewController.swift:15-29 | Every subscription runs the coordinator's lifecycle. It stays idle when the device cannot send or there is no anchor. Otherwise it shows the composer exactly once and ends observed, or being dismissed when dispose issued a dismissal. |
| MailComposing.MailFinish | Composers/MFMailComposeViewController.swift:37-44 | An error is the only event and the result is dropped. Without an error, the result and then completion. |
| MailComposing.MailFinishValueIff | Composers/MFMailComposeViewController.swift:38-43 | A result reaches the subscriber iff the delegate reported no error, and it is the reported result. |
| MailComposing.MakeComposer | Composers/MFMailComposeViewController.swift:21-24 | The delegate is assigned after the configuration and so always ends up being the coordinator. The controller stays a composer of its kind, and the settings are the configuration's. |
| MailComposing.MailComposer | Composers/MFMailComposeViewController.swift:15-29 | When subscribed, a device that cannot send mail fails with unsupported before anything is presented. Otherwise the composer is presented and the delegate's outcome delivered. With an anchor, the effects are the composer built, shown on the anchor, subscribed, then what dispose issues. |
| MailComposing.MailComposerFollowsLifecycle | Composers/MFMailComposeViewController.swift:15-29 | Every subscription runs the coordinator's lifecycle. It stays idle when the device cannot send or there is no anchor. Otherwise it shows the composer exactly once and ends observed, or being dismissed when dispose issued a dismissal. |
| MailComposing.MailComposerErrorDismisses | Composers/MFMailComposeViewController.swift:37-44 | A delegate error on a composer still on screen is the only event, and the composer is then dismissed from its anchor. |
| Descriptions.MailDescription | RxModalDescription.swift:27-39 | The description is non-empty, and it is "@unknown" exactly for cases the table does not know. |
| Descriptions.MessageDescription | RxModalDescription.swift:44-54 | The description is non-empty, and it is "@unknown" exactly for unknown cases. |
| Descriptions.StatusDescription | RxModalDescription.swift:62-74 | The description is non-empty, and it is "@unknown" exactly for unknown statuses. |
| Descriptions.DescriptionsRoundTrip | RxModalDescription.swift:27-74 | Each known case reads back from its description. "@unknown" reads back as no case. |
| Descriptions.DescriptionsDistinguishKnownCases | RxModalDescription.swift:28-71 | Within a table, two known cases have the same description iff they are the same case. |
| Descriptions.ComposerDescriptionsAgree | RxModalDescription.swift:28-51 | Mail and message results with the same meaning describe alike. |
| Descriptions.Describing | RxModalDescription.swift:15-21 | A conforming value uses its own table's description. Any other value falls back to its plain description. |
| Descriptions.DescribingReadsBack | RxModalDescription.swift:15-21 | For a conforming value, the description reads back through the value's own table, and it is "@unknown" exactly for a case the table does not know. |
| Internals.ConfigureIdentity | Sources/Internals.swift:13-17 | A configuration that changes nothing returns a value equal to the operand. |
| Internals.ConfigureChains | Sources/Internals.swift:13-17 | Configuring twice is configuring once with both closures, in order. |
| Internals.ConfigureRunsOnce | Sources/Internals.swift:15 | The configuration closure is invoked exactly once. |
| Rx.MergeOfOne | Dialogs/UIAlertController.swift:127 | Merging an outer sequence of one inner sequence and completion yields the inner sequence. |
| Rx.FlatMapOfSingle | Sources/Rx+AuthorizationStatus.swift:54 | Observable's flatMap over a Single-shaped sequence equals the Single's own flatMap. |
| Rx.AsSingle | Sources/Other/ASWebAuthenticationSession.swift:29 | asSingle yields a Single-shaped sequence. It leaves a Single unchanged, and a success is the source's first value and its completion. Completion without a value and a second value both become errors. |
| Rx.MapEvents | Sources/Dialogs/Dialog.swift:196-223 | Mapping keeps every event's kind and position and applies the function to each value. |

## Left out

- Presenter resolution (Sources/Presenter.swift, Presenter.swift): the window and scene lookup is UIKit with weak references. The model takes its outcome as `Option<Anchor>`.
- The photo picker (Sources/Pickers/PHPickerViewController.swift, PHPickerViewController.swift): it passes a PhotosUI array through the coordinator pattern already modelled.
- The example app: view controllers, table views and demo flows only.
- DialogTextField configurations (Sources/Dialogs/Dialog.swift:33-76) and popover anchoring (Dialogs/UIAlertController.swift:40-48, 69-75): they set UIKit properties. A text field is modelled by an opaque number, and a DialogSource by an opaque record.
- Threading: `subscribe(on: MainScheduler.instance)` and the asynchronous authorization prompt. The prompt's answer is a parameter that may be absent, which stands for a prompt not yet answered.
- Animation and timing: `isBeingDismissed` and the presenting controller are platform answers, given as parameters. Dismissal done by the platform itself is not modelled.
- Reference semantics: the `..` operator copies a value. For the class instances it is used with, the copy is the same object. The model treats controllers as values, so the operand is unchanged by construction.
- URL and callback scheme of the web authentication session are passed to the platform and not interpreted, so they are not parameters of the model.
- RxSwift itself: `PublishSubject`, `using`, `deferred`, `merge`, `flatMap` and `asSingle` are given their documented meaning over finite event lists. Inner sequences are delivered synchronously, so a merge is their concatenation in emission order. Interleaving of concurrent inner sequences is not modelled.
- Coordinator.LegacyPresentUsing: its own contract states only the shape. Its full behaviour comes through LegacyPresentUsingAgrees.
- Authorization.RequireObservable: its own contract states only well-formedness. The decision it makes comes through RequireObservableAgrees.
- The style-named factories (`default`, `cancel`, `destructive`) are one function each, taking the style as a parameter.
- Coordinator.PresentUsing: the four Completable, Single, Maybe and Observable overloads are one function, with the trait as a parameter.
- RxModalError.authorizationDenied carries `Any.Type`. The model carries the type's name as a string.
- Dialogs.MakeDialog: `requires |actions| > 0` stands for the initializer's `assert`, which traps only in debug builds. A release build accepts a dialog without actions, and that case is not modelled.
- LegacyDialogs.MakeDialog: the same debug-only `assert`, modelled the same way.
- Delegate callbacks: each wrapper takes at most one callback. A second callback is ignored because the subject has already terminated, and that is not modelled.
- WebAuth.WebAuthenticationSession: the session is started in `using`'s resource factory, before `result.asSingle()` is subscribed. A completion delivered during `start()` would be dropped by the subject, and the Single would never resolve. The model does not order the handler against the subscription: it shows such a run only as an absent completion.
- UIKit's own preconditions on alert controllers are not modelled. UIKit raises an exception when a text field is added to an action-sheet controller, and when a second cancel-style action is added. Alerts.MakeAlertController and Alerts.ActionSheet accept both inputs and show the controller.
- Errors raised by the platform (web authentication, mail) are the opaque `Platform(code)` failure, or any other failure value.

=== FILE: alerts.dfy ===
/** Presenting a Dialog as a UIAlertController. The controller gets one text
    field per DialogTextField and one alert action per DialogAction, in order;
    every action flagged preferred becomes the preferred action in turn. A tap
    sends the tapped action's sequence to the coordinator's subject and
    completes it, and the subscriber observes the merge of what the subject
    received. */
module Alerts {
  import opened Base
  import opened Rx
  import opened Dialogs
  import opened Coordinator

  datatype AlertActionStyle = AlertDefault | AlertCancel | AlertDestructive

  /** `alertActionStyle`: each dialog style maps to the alert style of the
      same name. */
  function AlertActionStyleOf(style: DialogActionStyle): (r: AlertActionStyle)
    ensures DialogActionStyleOf(r) == style
  {
    match style
    case Default => AlertDefault
    case Cancel => AlertCancel
    case Destructive => AlertDestructive
  }

  /** The mapping read backwards. */
  function DialogActionStyleOf(style: AlertActionStyle): DialogActionStyle {
    match style
    case AlertDefault => Default
    case AlertCancel => Cancel
    case AlertDestructive => Destructive
  }

  /** The style mapping is one-to-one and onto. */
  lemma AlertActionStyleBijective(style: DialogActionStyle, alertStyle: AlertActionStyle)
    ensures DialogActionStyleOf(AlertActionStyleOf(style)) == style
    ensures AlertActionStyleOf(DialogActionStyleOf(alertStyle)) == alertStyle
  {
  }

  /** A UIAlertAction: its title, its style, and the sequence its handler
      sends for the tapped fields. */
  datatype AlertAction<T> = AlertAction(title: string, style: AlertActionStyle, onNext: Fields -> seq<Event<T>>)

  /** `makeAlertAction(observer:textFields:)`. */
  function MakeAlertAction<T>(a: DialogAction<T>): (r: AlertAction<T>)
    ensures r.title == a.title && DialogActionStyleOf(r.style) == a.style && r.onNext == a.onNext
  {
    AlertAction(a.title, AlertActionStyleOf(a.style), a.onNext)
  }

  /** The alert action's handler: what the coordinator's subject receives when
      the action is tapped with the given field texts. It is exactly one inner
      sequence, the action's `onNext` of those texts, and then completion. */
  function Tapped<T>(action: AlertAction<T>, fields: Fields): (outer: seq<Event<seq<Event<T>>>>)
    ensures Conforms(SingleTrait, outer) && |outer| == 2
    ensures outer[0].value == action.onNext(fields)
  {
    [Next(action.onNext(fields)), Completed]
  }

  datatype DialogSource = ViewSource(view: nat) | BarButtonItemSource(item: nat)

  datatype DialogStyle = AlertStyle | ActionSheetStyle(source: DialogSource)

  datatype PreferredStyle = AlertPreferredStyle | ActionSheetPreferredStyle

  /** A UIAlertController as the library assembles it. `preferredAction` is
      the position of the preferred action among `actions`. */
  datatype AlertController<T> = AlertController(
    title: Option<string>,
    message: Option<string>,
    preferredStyle: PreferredStyle,
    textFields: seq<DialogTextField>,
    actions: seq<AlertAction<T>>,
    preferredAction: Option<nat>)

  predicate NonePreferred<T>(actions: seq<DialogAction<T>>) {
    forall i :: 0 <= i < |actions| ==> !actions[i].isPreferred
  }

  /** Position k holds the last action flagged preferred. */
  predicate IsLastPreferred<T>(actions: seq<DialogAction<T>>, k: int) {
    && 0 <= k < |actions|
    && actions[k].isPreferred
    && forall j :: k < j < |actions| ==> !actions[j].isPreferred
  }

  /** The `for textField in textFields` loop: one text field per
      DialogTextField, in order, and nothing else touched. */
  function AddTextFields<T>(c: AlertController<T>, fields: seq<DialogTextField>): (r: AlertController<T>)
    ensures r == c.(textFields := c.textFields + fields)
    decreases |fields|
  {
    if |fields| == 0 then c
    else
      var next := c.(textFields := c.textFields + [fields[0]]);
      assert next.textFields + fields[1..] == c.textFields + fields;
      AddTextFields(next, fields[1..])
  }

  /** The `for action in actions` loop: one alert action per dialog action,
      appended in order, and each flagged action overwriting the preferred
      action (see AddActionsPreferred). */
  function AddActions<T>(c: AlertController<T>, actions: seq<DialogAction<T>>): (r: AlertController<T>)
    ensures r.title == c.title && r.message == c.message
    ensures r.preferredStyle == c.preferredStyle && r.textFields == c.textFields
    ensures |r.actions| == |c.actions| + |actions|
    ensures r.actions[..|c.actions|] == c.actions
    ensures forall i :: 0 <= i < |actions| ==> r.actions[|c.actions| + i] == MakeAlertAction(actions[i])
    decreases |actions|
  {
    if |actions| == 0 then c
    else
      var next := AddAction(c, actions[0]);
      var r := AddActions(next, actions[1..]);
      assert r.actions[|c.actions|] == r.actions[..|next.actions|][|c.actions|];
      assert forall i :: 0 < i < |actions| ==> actions[i] == actions[1..][i - 1];
      assert r.actions[..|c.actions|] == next.actions[..|next.actions|][..|c.actions|];
      r
  }

  /** One pass of the loop: `addAction`, then `preferredAction = alertAction`
      when the dialog action is flagged. */
  function AddAction<T>(c: AlertController<T>, a: DialogAction<T>): (r: AlertController<T>)
    ensures r.title == c.title && r.message == c.message
    ensures r.preferredStyle == c.preferredStyle && r.textFields == c.textFields
    ensures r.actions == c.actions + [MakeAlertAction(a)]
    ensures a.isPreferred ==> r.preferredAction == Some(|r.actions| - 1)
    ensures !a.isPreferred ==> r.preferredAction == c.preferredAction
  {
    c.(actions := c.actions + [MakeAlertAction(a)],
       preferredAction := if a.isPreferred then Some(|c.actions|) else c.preferredAction)
  }

  /** Each flagged action overwrites the preferred action, so after the loop
      the last flagged one is preferred, and none flagged leaves it as it
      was. */
  lemma {:induction false} AddActionsPreferred<T>(c: AlertController<T>, actions: seq<DialogAction<T>>)
    ensures NonePreferred(actions) ==> AddActions(c, actions).preferredAction == c.preferredAction
    ensures !NonePreferred(actions) ==>
      && AddActions(c, actions).preferredAction.Some?
      && AddActions(c, actions).preferredAction.value >= |c.actions|
      && IsLastPreferred(actions, AddActions(c, actions).preferredAction.value - |c.actions|)
    decreases |actions|
  {
    if |actions| > 0 {
      var next := AddAction(c, actions[0]);
      var rest := actions[1..];
      AddActionsPreferred(next, rest);
      assert AddActions(c, actions) == AddActions(next, rest);
      assert forall i :: 0 < i < |actions| ==> actions[i] == rest[i - 1];
      if NonePreferred(rest) && actions[0].isPreferred {
        assert IsLastPreferred(actions, 0);
      }
    }
  }

  /** `makeAlertController(style:observer:)`: the dialog's title and message,
      its text fields and actions in order, and its last flagged action as the
      preferred one, if any is flagged. */
  function MakeAlertController<T>(d: Dialog<T>, style: DialogStyle): (r: AlertController<T>)
    ensures r.title == d.title && r.message == d.message
    ensures r.preferredStyle == (if style.AlertStyle? then AlertPreferredStyle else ActionSheetPreferredStyle)
    ensures r.textFields == d.textFields
    ensures |r.actions| == |d.actions|
    ensures forall i :: 0 <= i < |d.actions| ==> r.actions[i] == MakeAlertAction(d.actions[i])
    ensures r.preferredAction.Some? <==> !NonePreferred(d.actions)
    ensures r.preferredAction.Some? ==> IsLastPreferred(d.actions, r.preferredAction.value)
  {
    var empty := AlertController(d.title, d.message,
                                 if style.AlertStyle? then AlertPreferredStyle else ActionSheetPreferredStyle,
                                 [], [], None);
    var start := AddTextFields(empty, d.textFields);
    assert start.actions == [] && start.preferredAction == None && start.textFields == d.textFields;
    AddActionsPreferred(start, d.actions);
    var r := AddActions(start, d.actions);
    assert forall i :: 0 <= i < |d.actions| ==> r.actions[i] == MakeAlertAction(d.actions[i]) by {
      forall i | 0 <= i < |d.actions| ensures r.actions[i] == MakeAlertAction(d.actions[i]) {
        assert r.actions[|start.actions| + i] == MakeAlertAction(d.actions[i]);
      }
    }
    r
  }

  /** What the user does with the presented alert before the subscription
      ends: nothing, or a tap on one action with the text fields holding
      `fields`. */
  datatype UserResponse = NoTap | Tap(index: nat, fields: Fields)

  /** What the coordinator's `result.merge()` delivers: the merge of the one
      inner sequence a tap sends, or nothing without a tap. */
  function TapEvents<T>(controller: AlertController<T>, response: UserResponse): (s: seq<Event<T>>)
    requires response.Tap? ==> response.index < |controller.actions|
    ensures WellFormed(s)
    ensures response.NoTap? ==> s == []
  {
    if response.Tap? then Merge(Tapped(controller.actions[response.index], response.fields), false) else []
  }

  /** `RxModal.present(_:style:presenter:)`: the dialog's controller is
      presented through the older coordinator's Observable wrapper, and the
      subscriber observes the merge of what a tap sends to the coordinator's
      subject. */
  function PresentDialog<T>(d: Dialog<T>, style: DialogStyle, id: CoordinatorId, presenter: Option<Anchor>,
                            response: UserResponse, view: ControllerView): (r: Run<T, AlertController<T>>)
    requires |d.actions| > 0
    requires response.Tap? ==> response.index < |d.actions|
    ensures WellFormed(r.events)
    ensures presenter.None? ==> r.events == [Error(MissingPresenter)] && r.effects == []
    ensures presenter.Some? ==>
      && |r.effects| >= 2
      && r.effects[1] == Shown(presenter.value, MakeAlertController(d, style), true)
    ensures presenter.Some? && response.NoTap? ==> r.events == []
  {
    var controller := MakeAlertController(d, style);
    var events := TapEvents(controller, response);
    var factory := (_: CoordinatorId) => controller;
    LegacyPresentUsingAgrees(ObservableTrait, id, presenter, factory, events, view);
    var r := LegacyPresentUsing(ObservableTrait, id, presenter, factory, events, view);
    assert presenter.Some? ==> r.effects[1] == r.effects[..3][1];
    r
  }

  /** A tap delivers exactly the tapped action's sequence to the subscriber. */
  lemma {:induction false} TapDeliversActionSequence<T>(d: Dialog<T>, style: DialogStyle, id: CoordinatorId, anchor: Anchor,
                                                        index: nat, fields: Fields, view: ControllerView)
    requires |d.actions| > 0
    requires index < |d.actions|
    requires WellFormed(d.actions[index].onNext(fields))
    ensures PresentDialog(d, style, id, Some(anchor), Tap(index, fields), view).events == d.actions[index].onNext(fields)
  {
    var controller := MakeAlertController(d, style);
    assert controller.actions[index].onNext == d.actions[index].onNext;
    assert TapEvents(controller, Tap(index, fields)) == Merge(Tapped(controller.actions[index], fields), false);
    MergeOfOne(d.actions[index].onNext(fields));
  }

  /** `RxModal.present(_:type:presenter:title:message:textFields:actions:)`:
      builds the Dialog, so it needs at least one action, and presents it. */
  function PresentStyled<T>(style: DialogStyle, id: CoordinatorId, presenter: Option<Anchor>,
                            title: Option<string>, message: Option<string>,
                            textFields: seq<DialogTextField>, actions: seq<DialogAction<T>>,
                            response: UserResponse, view: ControllerView): (r: Run<T, AlertController<T>>)
    requires |actions| > 0
    requires response.Tap? ==> response.index < |actions|
    ensures WellFormed(r.events)
    ensures presenter.None? ==> r.events == [Error(MissingPresenter)] && r.effects == []
    ensures presenter.Some? ==>
      && |r.effects| >= 2
      && r.effects[1].Shown?
      && r.effects[1].controller.title == title
      && r.effects[1].controller.message == message
      && r.effects[1].controller.textFields == textFields
      && |r.effects[1].controller.actions| == |actions|
    ensures presenter.Some? ==>
      r.effects[1] == Shown(presenter.value, MakeAlertController(MakeDialog(title, message, textFields, actions), style), true)
    ensures presenter.Some? && response.Tap? && WellFormed(actions[response.index].onNext(response.fields)) ==>
      r.events == actions[response.index].onNext(response.fields)
    ensures presenter.Some? && response.NoTap? ==> r.events == []
  {
    var d := MakeDialog(title, message, textFields, actions);
    if presenter.Some? && response.Tap? && WellFormed(actions[response.index].onNext(response.fields)) then
      TapDeliversActionSequence(d, style, id, presenter.value, response.index, response.fields, view);
      PresentDialog(d, style, id, presenter, response, view)
    else
      PresentDialog(d, style, id, presenter, response, view)
  }

  /** A styled alert or action sheet with an anchor is shown exactly once,
      whatever the user does. */
  lemma PresentStyledShowsOnce<T>(style: DialogStyle, id: CoordinatorId, anchor: Anchor,
                                  title: Option<string>, message: Option<string>,
                                  textFields: seq<DialogTextField>, actions: seq<DialogAction<T>>,
                                  response: UserResponse, view: ControllerView)
    requires |actions| > 0
    requires response.Tap? ==> response.index < |actions|
    ensures CountShown(PresentStyled(style, id, Some(anchor), title, message, textFields, actions, response, view).effects) == 1
  {
    PresentDialogShowsOnce(MakeDialog(title, message, textFields, actions), style, id, anchor, response, view);
  }

  /** `RxModal.alert`: the alert style of PresentStyled. */
  function Alert<T>(id: CoordinatorId, presenter: Option<Anchor>,
                    title: Option<string>, message: Option<string>,
                    textFields: seq<DialogTextField>, actions: seq<DialogAction<T>>,
                    response: UserResponse, view: ControllerView): (r: Run<T, AlertController<T>>)
    requires |actions| > 0
    requires response.Tap? ==> response.index < |actions|
    ensures presenter.Some? ==>
      && |r.effects| >= 2
      && r.effects[1].Shown?
      && r.effects[1].controller.preferredStyle == AlertPreferredStyle
    ensures presenter.None? ==> r.events == [Error(MissingPresenter)] && r.effects == []
    ensures presenter.Some? ==>
      r.effects[1] == Shown(presenter.value, MakeAlertController(MakeDialog(title, message, textFields, actions), AlertStyle), true)
    ensures presenter.Some? && response.Tap? && WellFormed(actions[response.index].onNext(response.fields)) ==>
      r.events == actions[response.index].onNext(response.fields)
  {
    PresentStyled(AlertStyle, id, presenter, title, message, textFields, actions, response, view)
  }

  /** `RxModal.actionSheet`: the action-sheet style of PresentStyled. */
  function ActionSheet<T>(id: CoordinatorId, presenter: Option<Anchor>, source: DialogSource,
                          title: Option<string>, message: Option<string>,
                          textFields: seq<DialogTextField>, actions: seq<DialogAction<T>>,
                          response: UserResponse, view: ControllerView): (r: Run<T, AlertController<T>>)
    requires |actions| > 0
    requires response.Tap? ==> response.index < |actions|
    ensures presenter.Some? ==>
      && |r.effects| >= 2
      && r.effects[1].Shown?
      && r.effects[1].controller.preferredStyle == ActionSheetPreferredStyle
    ensures presenter.None? ==> r.events == [Error(MissingPresenter)] && r.effects == []
    ensures presenter.Some? ==>
      r.effects[1] == Shown(presenter.value, MakeAlertController(MakeDialog(title, message, textFields, actions), ActionSheetStyle(source)), true)
    ensures presenter.Some? && response.Tap? && WellFormed(actions[response.index].onNext(response.fields)) ==>
      r.events == actions[response.index].onNext(response.fields)
  {
    PresentStyled(ActionSheetStyle(source), id, presenter, title, message, textFields, actions, response, view)
  }

  /** A presented dialog is shown exactly once, whatever the user does. */
  lemma PresentDialogShowsOnce<T>(d: Dialog<T>, style: DialogStyle, id: CoordinatorId, anchor: Anchor,
                                  response: UserResponse, view: ControllerView)
    requires |d.actions| > 0
    requires response.Tap? ==> response.index < |d.actions|
    ensures CountShown(PresentDialog(d, style, id, Some(anchor), response, view).effects) == 1
  {
    var controller := MakeAlertController(d, style);
    var events := TapEvents(controller, response);
    var factory := (_: CoordinatorId) => controller;
    LegacyPresentUsingAgrees(ObservableTrait, id, Some(anchor), factory, events, view);
    PresentUsingShowsOnce(ObservableTrait, id, anchor, factory, events, view);
  }

  /** The delete-confirmation alert: with a Cancel action mapping to "cancel"
      and a Delete action mapping to "delete", tapping Delete delivers
      "delete" then completion, and the alert is shown exactly once. */
  lemma DeleteConfirmation(id: CoordinatorId, anchor: Anchor, fields: Fields, view: ControllerView)
    ensures var r := Alert(id, Some(anchor), Some("Delete Item"), None, [],
                           [MapToAction(Cancel, "Cancel", "cancel"), MapToAction(Destructive, "Delete", "delete")],
                           Tap(1, fields), view);
      r.events == [Next("delete"), Completed] && CountShown(r.effects) == 1
  {
    var actions := [MapToAction(Cancel, "Cancel", "cancel"), MapToAction(Destructive, "Delete", "delete")];
    var d := MakeDialog(Some("Delete Item"), None, [], actions);
    assert d.actions[1].onNext(fields) == [Next("delete"), Completed];
    TapDeliversActionSequence(d, AlertStyle, id, anchor, 1, fields, view);
    PresentDialogShowsOnce(d, AlertStyle, id, anchor, Tap(1, fields), view);
  }
}

=== FILE: authorization.dfy ===
/** `require(_:in:)`: gate a sequence behind an authorization status. The
    status is a Single; once it succeeds, a status in the expected list lets
    the wrapped sequence through untouched, and any other status fails with
    `authorizationDenied` without the wrapped sequence ever being subscribed
    to. The Completable, Single and Maybe overloads use the Single's own
    flatMap; the Observable overload lifts the status to an Observable first. */
module Authorization {
  import opened Base
  import opened Rx

  /** What a subscriber of the gated sequence observes, and whether the
      wrapped sequence was subscribed to. */
  datatype Gated<T> = Gated(events: seq<Event<T>>, subscribed: bool)

  /** The status Single succeeded with a status the caller accepts. */
  predicate Granted<S(==)>(status: seq<Event<S>>, expected: seq<S>)
    requires Conforms(SingleTrait, status)
  {
    |status| == 2 && status[0].value in expected
  }

  /** The closure each overload passes to flatMap: the wrapped sequence
      itself, reporting that it is now subscribed to, or a sequence that
      fails with `authorizationDenied(T.self)` and leaves it untouched. */
  function Gate<S(==), T>(wrapped: seq<Event<T>>, expected: seq<S>, statusType: string, status: S): (r: Gated<T>)
    ensures r.subscribed <==> status in expected
    ensures r.subscribed ==> r.events == wrapped
    ensures !r.subscribed ==> r.events == [Error(AuthorizationDenied(statusType))]
  {
    if status in expected then Gated(wrapped, true) else Gated([Error(AuthorizationDenied(statusType))], false)
  }

  /** The Single's flatMap, threading the continuation's report of whether it
      subscribed to the wrapped sequence: a pending or failed status never
      runs the continuation. */
  function GateThen<S, T>(status: seq<Event<S>>, gate: S -> Gated<T>): (r: Gated<T>)
    requires Conforms(SingleTrait, status)
    ensures r.events == AndThen(status, (s: S) => gate(s).events)
    ensures r.subscribed <==> |status| == 2 && gate(status[0].value).subscribed
  {
    if |status| == 0 then Gated([], false)
    else if status[0].Error? then Gated([Error(status[0].error)], false)
    else gate(status[0].value)
  }

  /** The Completable, Single and Maybe overloads of `require`, selected by
      `kind`. `statusType` names the status type, Swift's `T.self`. */
  function Require<S(==), T>(kind: Trait, wrapped: seq<Event<T>>, status: seq<Event<S>>,
                             expected: seq<S>, statusType: string): (r: Gated<T>)
    requires Conforms(kind, wrapped)
    requires Conforms(SingleTrait, status)
    ensures Conforms(kind, r.events)
    ensures r.subscribed <==> Granted(status, expected)
    ensures r.subscribed ==> r.events == wrapped
    ensures |status| == 2 && status[0].value !in expected ==>
              r.events == [Error(AuthorizationDenied(statusType))]
    ensures |status| == 1 ==> r.events == [Error(status[0].error)]
    ensures |status| == 0 ==> r.events == []
  {
    GateThen(status, (s: S) => Gate(wrapped, expected, statusType, s))
  }

  /** The Observable overload: `status.asObservable().flatMap { … }`. */
  function RequireObservable<S(==), T>(wrapped: seq<Event<T>>, status: seq<Event<S>>,
                                       expected: seq<S>, statusType: string): (r: seq<Event<T>>)
    requires WellFormed(wrapped)
    requires Conforms(SingleTrait, status)
    ensures WellFormed(r)
  {
    FlatMap(status, (s: S) => Gate(wrapped, expected, statusType, s).events)
  }

  /** Going through Observable's flatMap makes the same decision as the other
      three overloads. */
  lemma RequireObservableAgrees<S, T>(wrapped: seq<Event<T>>, status: seq<Event<S>>,
                                      expected: seq<S>, statusType: string)
    requires WellFormed(wrapped)
    requires Conforms(SingleTrait, status)
    ensures RequireObservable(wrapped, status, expected, statusType)
         == Require(ObservableTrait, wrapped, status, expected, statusType).events
  {
    FlatMapOfSingle(status, (s: S) => Gate(wrapped, expected, statusType, s).events);
  }

  /** With nothing expected, every status is denied. */
  lemma RequireNothingDenies<S, T>(kind: Trait, wrapped: seq<Event<T>>, status: seq<Event<S>>, statusType: string)
    requires Conforms(kind, wrapped)
    requires Conforms(SingleTrait, status)
    requires |status| == 2
    ensures Require(kind, wrapped, status, [], statusType) == Gated([Error(AuthorizationDenied(statusType))], false)
  {
  }

  /** Only membership in the expected list matters, not its order or
      repetitions. */
  lemma RequireMembershipOnly<S, T>(kind: Trait, wrapped: seq<Event<T>>, status: seq<Event<S>>,
                                    expected1: seq<S>, expected2: seq<S>, statusType: string)
    requires Conforms(kind, wrapped)
    requires Conforms(SingleTrait, status)
    requires forall s :: s in expected1 <==> s in expected2
    ensures Require(kind, wrapped, status, expected1, statusType) == Require(kind, wrapped, status, expected2, statusType)
  {
  }

  /** The overloads differ only in the kind of the wrapped sequence: for the
      same status and expected list they subscribe alike, and when they do
      not subscribe they report the same failure, or nothing yet. */
  lemma RequireSameDecision<S, T, U>(kind1: Trait, wrapped1: seq<Event<T>>, kind2: Trait, wrapped2: seq<Event<U>>,
                                     status: seq<Event<S>>, expected: seq<S>, statusType: string)
    requires Conforms(kind1, wrapped1) && Conforms(kind2, wrapped2)
    requires Conforms(SingleTrait, status)
    ensures var r1 := Require(kind1, wrapped1, status, expected, statusType);
            var r2 := Require(kind2, wrapped2, status, expected, statusType);
      && r1.subscribed == r2.subscribed
      && (!r1.subscribed ==> |r1.events| == |r2.events| <= 1)
      && (!r1.subscribed && |r1.events| == 1 ==> r1.events[0].Error? && r2.events[0].Error? && r1.events[0].error == r2.events[0].error)
  {
  }
}

=== FILE: base.dfy ===
/** Vocabulary shared by every part of the model: optional values and the
    errors a subscriber can observe. */
module Base {

  /** A value that may be absent: Swift's Optional. */
  datatype Option<+T> = None | Some(value: T)

  /** The errors that reach a subscriber.
      - MissingPresenter, Unsupported and AuthorizationDenied are the cases of
        RxModalError; AuthorizationDenied carries the identity of the status
        type that was checked (Swift's `T.self`), written as its name.
      - NoElements and MoreThanOneElement are the errors RxSwift's asSingle
        raises when a sequence does not hold exactly one element.
      - Platform stands for any error a system framework hands over, which the
        library forwards unchanged. */
  datatype Failure =
    | MissingPresenter
    | Unsupported
    | AuthorizationDenied(statusType: string)
    | NoElements
    | MoreThanOneElement
    | Platform(code: int)
}

=== FILE: composers.dfy ===
/** `RxModal.messageComposer`: an MFMessageComposeViewController presented
    through the generic coordinator, after checking the device can send text. */
module MessageComposing {
  import opened Base
  import opened Rx
  import opened Coordinator
  import opened Internals

  datatype MessageComposeResult = MessageCancelled | MessageSent | MessageFailed | MessageUnknown(raw: int)

  /** `messageComposeViewController(_:didFinishWith:)`: every result, failed
      included, is a value followed by completion. */
  function MessageFinish(result: MessageComposeResult): (s: seq<Event<MessageComposeResult>>)
    ensures Conforms(SingleTrait, s) && Terminated(s)
    ensures |s| == 2 && s[0] == Next(result)
  {
    Just(result)
  }

  /** The controller factory: the caller's configuration, then the
      coordinator as `messageComposeDelegate`. The configuration mutates the
      controller and cannot change its class. */
  function MakeComposer(delegate: CoordinatorId, configuration: ViewController -> ViewController): (c: ViewController)
    ensures c.delegate == Some(delegate)
    ensures c.kind == MessageComposeController
    ensures c.settings == configuration(ViewController(MessageComposeController, None, [])).settings
  {
    Configure(ViewController(MessageComposeController, None, []),
              (m: ViewController) => configuration(m).(kind := MessageComposeController, delegate := Some(delegate)))
  }

  /** `messageComposer(presenter:configuration:)`. `canSendText` is the
      device's answer, read when subscribed to; `finished` is the delegate
      call, if it came before the subscription ended. A device that cannot
      send fails with `unsupported` before any coordinator exists. */
  function MessageComposer(canSendText: bool, id: CoordinatorId, presenter: Option<Anchor>,
                           configuration: ViewController -> ViewController,
                           finished: Option<MessageComposeResult>, view: ControllerView): (r: Run<MessageComposeResult, ViewController>)
    ensures Conforms(SingleTrait, r.events)
    ensures !canSendText ==> r.events == [Error(Unsupported)] && r.effects == []
    ensures canSendText && presenter.None? ==> r.events == [Error(MissingPresenter)] && r.effects == []
    ensures canSendText && presenter.Some? ==>
      && r.events == (if finished.Some? then MessageFinish(finished.value) else [])
      && |r.effects| >= 3
      && r.effects[..3] == [Built(MakeComposer(id, configuration)),
                            Shown(presenter.value, MakeComposer(id, configuration), true), Subscribed]
      && r.effects[3..] == Dispose(Coordinator(id, Some(MakeComposer(id, configuration))), view)
    ensures |r.effects| > 0 <==> canSendText && presenter.Some?
  {
    if !canSendText then Run([Error(Unsupported)], [])
    else
      var delivered := if finished.Some? then MessageFinish(finished.value) else [];
      PresentUsing(SingleTrait, id, presenter, (i: CoordinatorId) => MakeComposer(i, configuration),
                   AsSingle(delivered), view)
  }

  /** A subscription follows the coordinator's lifecycle: it stays Idle when
      the device cannot send or there is no anchor, and otherwise shows the
      composer once and ends observed, or being dismissed when dispose asked
      for a dismissal. */
  lemma MessageComposerFollowsLifecycle(canSendText: bool, id: CoordinatorId, presenter: Option<Anchor>,
                                        configuration: ViewController -> ViewController,
                                        finished: Option<MessageComposeResult>, view: ControllerView)
    ensures var r := MessageComposer(canSendText, id, presenter, configuration, finished, view);
      && (!(canSendText && presenter.Some?) ==> Replay(Idle, r.effects) == Some(Idle) && CountShown(r.effects) == 0)
      && (canSendText && presenter.Some? ==>
            && CountShown(r.effects) == 1
            && Replay(Idle, r.effects) == Some(if !view.isBeingDismissed && view.presenting.Some?
                                               then Dismissing(MakeComposer(id, configuration))
                                               else Observed(MakeComposer(id, configuration))))
  {
    var r := MessageComposer(canSendText, id, presenter, configuration, finished, view);
    if canSendText && presenter.Some? {
      PresentationLogFollowsLifecycle(r.effects, id, presenter.value, MakeComposer(id, configuration), view);
    }
  }
}

/** `RxModal.mailComposer`: an MFMailComposeViewController presented through
    the older coordinator, after checking the device can send mail. */
module MailComposing {
  import opened Base
  import opened Rx
  import opened Coordinator
  import opened Internals

  datatype MailComposeResult = MailCancelled | MailSaved | MailSent | MailFailed | MailUnknown(raw: int)

  /** The arguments of `mailComposeController(_:didFinishWith:error:)`. */
  datatype MailFinishCall = MailFinishCall(result: MailComposeResult, error: Option<Failure>)

  /** The delegate: an error is the only event and the result is dropped;
      without one, the result and then completion. */
  function MailFinish(call: MailFinishCall): (s: seq<Event<MailComposeResult>>)
    ensures Conforms(SingleTrait, s) && Terminated(s)
    ensures call.error.Some? ==> s == [Error(call.error.value)]
    ensures call.error.None? ==> s == [Next(call.result), Completed]
  {
    match call.error
    case Some(e) => [Error(e)]
    case None => Just(call.result)
  }

  /** The subscriber sees a result exactly when the delegate reported no
      error, and then it is the reported one. */
  lemma MailFinishValueIff(call: MailFinishCall)
    ensures MailFinish(call)[0].Next? <==> call.error.None?
    ensures MailFinish(call)[0].Next? ==> MailFinish(call)[0].value == call.result
  {
  }

  /** The controller factory: the caller's configuration, then the
      coordinator as `mailComposeDelegate`. The configuration mutates the
      controller and cannot change its class. */
  function MakeComposer(delegate: CoordinatorId, configuration: ViewController -> ViewController): (c: ViewController)
    ensures c.delegate == Some(delegate)
    ensures c.kind == MailComposeController
    ensures c.settings == configuration(ViewController(MailComposeController, None, [])).settings
  {
    Configure(ViewController(MailComposeController, None, []),
              (m: ViewController) => configuration(m).(kind := MailComposeController, delegate := Some(delegate)))
  }

  /** `mailComposer(presenter:configuration:)`, on the older coordinator's
      wrapper. A device that cannot send mail fails with `unsupported`
      before any coordinator exists. */
  function MailComposer(canSendMail: bool, id: CoordinatorId, presenter: Option<Anchor>,
                        configuration: ViewController -> ViewController,
                        finished: Option<MailFinishCall>, view: ControllerView): (r: Run<MailComposeResult, ViewController>)
    ensures Conforms(SingleTrait, r.events)
    ensures !canSendMail ==> r.events == [Error(Unsupported)] && r.effects == []
    ensures canSendMail && presenter.None? ==> r.events == [Error(MissingPresenter)] && r.effects == []
    ensures canSendMail && presenter.Some? ==>
      && r.events == (if finished.Some? then MailFinish(finished.value) else [])
      && |r.effects| >= 3
      && r.effects[..3] == [Built(MakeComposer(id, configuration)),
                            Shown(presenter.value, MakeComposer(id, configuration), true), Subscribed]
      && r.effects[3..] == Dispose(Coordinator(id, Some(MakeComposer(id, configuration))), view)
    ensures |r.effects| > 0 <==> canSendMail && presenter.Some?
  {
    if !canSendMail then Run([Error(Unsupported)], [])
    else
      var delivered := if finished.Some? then MailFinish(finished.value) else [];
      var factory := (i: CoordinatorId) => MakeComposer(i, configuration);
      LegacyPresentUsingAgrees(SingleTrait, id, presenter, factory, AsSingle(delivered), view);
      LegacyPresentUsing(SingleTrait, id, presenter, factory, AsSingle(delivered), view)
  }

  /** A subscription follows the coordinator's lifecycle: it stays Idle when
      the device cannot send or there is no anchor, and otherwise shows the
      composer once and ends observed, or being dismissed when dispose asked
      for a dismissal. */
  lemma MailComposerFollowsLifecycle(canSendMail: bool, id: CoordinatorId, presenter: Option<Anchor>,
                                     configuration: ViewController -> ViewController,
                                     finished: Option<MailFinishCall>, view: ControllerView)
    ensures var r := MailComposer(canSendMail, id, presenter, configuration, finished, view);
      && (!(canSendMail && presenter.Some?) ==> Replay(Idle, r.effects) == Some(Idle) && CountShown(r.effects) == 0)
      && (canSendMail && presenter.Some? ==>
            && CountShown(r.effects) == 1
            && Replay(Idle, r.effects) == Some(if !view.isBeingDismissed && view.presenting.Some?
                                               then Dismissing(MakeComposer(id, configuration))
                                               else Observed(MakeComposer(id, configuration))))
  {
    var r := MailComposer(canSendMail, id, presenter, configuration, finished, view);
    if canSendMail && presenter.Some? {
      PresentationLogFollowsLifecycle(r.effects, id, presenter.value, MakeComposer(id, configuration), view);
    }
  }

  /** A composer still on screen whose delegate reports an error: the error
      is the only event, and disposing dismisses the composer from its
      anchor. */
  lemma MailComposerErrorDismisses(id: CoordinatorId, anchor: Anchor,
                                   configuration: ViewController -> ViewController,
                                   result: MailComposeResult, e: Failure)
    ensures var r := MailComposer(true, id, Some(anchor), configuration,
                                  Some(MailFinishCall(result, Some(e))), ControllerView(false, Some(anchor)));
      && r.events == [Error(e)]
      && |r.effects| == 4
      && r.effects[3] == Dismissed(anchor, true)
  {
  }
}

=== FILE: coordinator.dfy ===
/** RxModalCoordinator: the object that owns one presented controller for the
    lifetime of one subscription. `present` stores the controller and shows it
    on the anchor a Presenter resolves to; `dispose` dismisses it unless UIKit
    is already doing so. The static `present(using:controllerFactory:sequence:)`
    wrappers build one coordinator per subscription with RxSwift's `using`.

    UIKit is abstracted away: a Presenter is the anchor it resolved to (or
    none), a controller is an opaque value of type C, and what UIKit reports
    about the controller when it is disposed is a ControllerView. What the
    coordinator asks of UIKit is recorded, in order, as a log of effects. */
module Coordinator {
  import opened Base
  import opened Rx

  /** The view controller a Presenter resolved to, onto which a controller is
      presented. */
  datatype Anchor = Anchor(id: nat)

  /** The identity of one coordinator instance. Controller factories receive
      it, because the coordinator is the delegate of the controller built. */
  type CoordinatorId = nat

  /** The system controllers the library builds through a coordinator. */
  datatype ControllerKind = MediaPickerController | MailComposeController | MessageComposeController

  /** A system controller as far as the library touches it: the coordinator it
      reports to, and whatever the caller's configuration closure set on it. */
  datatype ViewController = ViewController(kind: ControllerKind, delegate: Option<CoordinatorId>, settings: seq<string>)

  /** What the coordinator asks of UIKit and of RxSwift, in order. */
  datatype Effect<C> =
    | Built(controller: C)                               // the controller autoclosure was evaluated
    | Shown(on: Anchor, controller: C, animated: bool)   // anchor.present(controller, animated:)
    | Subscribed                                         // `sequence(coordinator)` was built and subscribed to
    | Dismissed(from: Anchor, animated: bool)            // presentingViewController.dismiss(animated:)

  /** The coordinator's state: its identity and the controller slot that only
      `present` fills. */
  datatype Coordinator<C> = Coordinator(id: CoordinatorId, stored: Option<C>)

  /** What UIKit reports about the stored controller when the coordinator is
      disposed: whether it is already being dismissed, and the controller it
      was presented from, if it is still presented. */
  datatype ControllerView = ControllerView(isBeingDismissed: bool, presenting: Option<Anchor>)

  /** The coordinator after `present`, what `present` asked of UIKit, and the
      error it threw, if any. */
  datatype PresentOutcome<C> = PresentOutcome(coordinator: Coordinator<C>, effects: seq<Effect<C>>, failure: Option<Failure>)

  /** `Self.init()`: a coordinator that has presented nothing yet. */
  function Fresh<C>(id: CoordinatorId): Coordinator<C> {
    Coordinator(id, None)
  }

  /** `present(_:with:)`, in both the generic coordinator and the older
      non-generic one. Without an anchor it throws before the controller
      autoclosure is evaluated; otherwise the coordinator keeps the controller
      and presents that same controller, animated, exactly once. */
  function Present<C>(co: Coordinator<C>, presenter: Option<Anchor>, controller: () -> C): (r: PresentOutcome<C>)
    ensures r.coordinator.id == co.id
    ensures r.failure.Some? <==> presenter.None?
    ensures presenter.None? ==> r.failure == Some(MissingPresenter) && r.effects == [] && r.coordinator == co
    ensures presenter.Some? ==>
      && r.coordinator.stored == Some(controller())
      && r.effects == [Built(controller()), Shown(presenter.value, controller(), true)]
  {
    match presenter
    case None => PresentOutcome(co, [], Some(MissingPresenter))
    case Some(anchor) =>
      var c := controller();
      PresentOutcome(co.(stored := Some(c)), [Built(c), Shown(anchor, c, true)], None)
  }

  /** `present` drives the lifecycle from Idle: it stays Idle and stores
      nothing without an anchor, and otherwise reaches OnScreen with the
      stored controller. */
  lemma PresentFollowsLifecycle<C>(co: Coordinator<C>, presenter: Option<Anchor>, controller: () -> C)
    ensures var r := Present(co, presenter, controller);
      && (presenter.None? ==> Replay(Idle, r.effects) == Some(Idle) && r.coordinator.stored == co.stored)
      && (presenter.Some? ==> Replay(Idle, r.effects) == Some(OnScreen(controller()))
                              && r.coordinator.stored == Some(controller()))
  {
    var r := Present(co, presenter, controller);
    if presenter.Some? {
      var c := controller();
      assert r.effects == [Built(c), Shown(presenter.value, c, true)];
      assert Step(Idle, Built(c)) == Some(Constructed(c));
      assert r.effects[1..] == [Shown(presenter.value, c, true)];
      assert Replay(Idle, r.effects) == Replay(Constructed(c), r.effects[1..]);
      assert r.effects[1..][1..] == [];
      assert Replay(Constructed(c), r.effects[1..]) == Replay(OnScreen(c), []);
    }
  }

  /** The `viewController` accessor, which force-unwraps the stored
      controller: it may only be read once `present` has succeeded. */
  function PresentedController<C>(co: Coordinator<C>): (c: C)
    requires co.stored.Some?
    ensures co.stored == Some(c)
  {
    co.stored.value
  }

  /** `dispose()` of the generic coordinator. It reads `viewController`, so it
      needs a stored controller; it asks for nothing while the controller is
      being dismissed, and otherwise asks the presenting controller, if any,
      for exactly one animated dismissal. */
  function Dispose<C>(co: Coordinator<C>, view: ControllerView): (effects: seq<Effect<C>>)
    requires co.stored.Some?
    ensures |effects| <= 1
    ensures |effects| == 1 <==> !view.isBeingDismissed && view.presenting.Some?
    ensures |effects| == 1 ==> effects[0] == Dismissed(view.presenting.value, true)
  {
    var _ := PresentedController(co);
    if view.isBeingDismissed then []
    else match view.presenting
      case None => []
      case Some(from) => [Dismissed(from, true)]
  }

  /** `dispose()` of the older coordinator: it does nothing when no controller
      was ever stored, and otherwise behaves as the generic one. */
  function LegacyDispose<C>(co: Coordinator<C>, view: ControllerView): (effects: seq<Effect<C>>)
    ensures co.stored.None? ==> effects == []
    ensures co.stored.Some? ==> effects == Dispose(co, view)
  {
    match co.stored
    case None => []
    case Some(_) =>
      if view.isBeingDismissed then []
      else match view.presenting
        case None => []
        case Some(from) => [Dismissed(from, true)]
  }

  /** Once a dismissal has been asked for, UIKit reports the controller as
      being dismissed, so a second dispose asks for nothing more. */
  lemma DisposeTwiceDismissesOnce<C>(co: Coordinator<C>, view: ControllerView)
    requires co.stored.Some?
    ensures |Dispose(co, view) + Dispose(co, view.(isBeingDismissed := true))| <= 1
    ensures |LegacyDispose(co, view) + LegacyDispose(co, view.(isBeingDismissed := true))| <= 1
  {
  }

  /** One subscription, from subscribe to its end: what the subscriber
      observed, and what was asked of UIKit. */
  datatype Run<T, C> = Run(events: seq<Event<T>>, effects: seq<Effect<C>>)

  /** The four static `present(using:controllerFactory:sequence:)` wrappers of
      the generic coordinator; `kind` selects the Completable, Single, Maybe
      or Observable overload. On subscription `using` creates a fresh
      coordinator and presents the factory's controller; a throw becomes the
      sequence's only event and `sequence` is never built. Otherwise the
      subscriber observes `events`, what `sequence(coordinator)` delivers, and
      when the subscription ends `using` disposes the coordinator, with UIKit
      reporting `view`. */
  function PresentUsing<T, C>(kind: Trait, id: CoordinatorId, presenter: Option<Anchor>,
                              factory: CoordinatorId -> C, events: seq<Event<T>>,
                              view: ControllerView): (r: Run<T, C>)
    requires Conforms(kind, events)
    ensures Conforms(kind, r.events)
    ensures presenter.None? ==> r.events == [Error(MissingPresenter)] && r.effects == []
    ensures presenter.Some? ==> r.events == events
    ensures presenter.Some? ==>
      && |r.effects| >= 3
      && r.effects[..3] == [Built(factory(id)), Shown(presenter.value, factory(id), true), Subscribed]
      && r.effects[3..] == Dispose(Coordinator(id, Some(factory(id))), view)
    ensures (exists i :: 0 <= i < |r.events| && r.events[i].Next?) ==> presenter.Some?
  {
    var p := Present(Fresh(id), presenter, () => factory(id));
    match p.failure
    case Some(e) => Run([Error(e)], p.effects)
    case None => Run(events, p.effects + [Subscribed] + Dispose(p.coordinator, view))
  }

  /** The four static wrappers of the older coordinator, which dispose with
      the nil-safe `dispose`. */
  function LegacyPresentUsing<T, C>(kind: Trait, id: CoordinatorId, presenter: Option<Anchor>,
                                    factory: CoordinatorId -> C, events: seq<Event<T>>,
                                    view: ControllerView): (r: Run<T, C>)
    requires Conforms(kind, events)
    ensures Conforms(kind, r.events)
  {
    var p := Present(Fresh(id), presenter, () => factory(id));
    match p.failure
    case Some(e) => Run([Error(e)], p.effects)
    case None => Run(events, p.effects + [Subscribed] + LegacyDispose(p.coordinator, view))
  }

  /** The older coordinator's nil check in `dispose` never fires under
      `using`, which only disposes a coordinator that presented: both
      generations of the wrappers behave alike. */
  lemma LegacyPresentUsingAgrees<T, C>(kind: Trait, id: CoordinatorId, presenter: Option<Anchor>,
                                       factory: CoordinatorId -> C, events: seq<Event<T>>,
                                       view: ControllerView)
    requires Conforms(kind, events)
    ensures LegacyPresentUsing(kind, id, presenter, factory, events, view)
         == PresentUsing(kind, id, presenter, factory, events, view)
  {
  }

  /** The coordinator's lifecycle as a state machine over its effect log:
      Idle, then the controller built, shown, observed, and at last being
      dismissed. */
  datatype Phase<C> = Idle | Constructed(controller: C) | OnScreen(controller: C) | Observed(controller: C) | Dismissing(controller: C)

  ghost function Step<C>(p: Phase<C>, e: Effect<C>): Option<Phase<C>> {
    match e
    case Built(c) => if p.Idle? then Some(Constructed(c)) else None
    case Shown(_, c, animated) => if p.Constructed? && p.controller == c && animated then Some(OnScreen(c)) else None
    case Subscribed => if p.OnScreen? then Some(Observed(p.controller)) else None
    case Dismissed(_, _) => if p.Observed? then Some(Dismissing(p.controller)) else None
  }

  /** The phase an effect log leads to from `p`, or None if the log breaks the
      lifecycle. */
  ghost function Replay<C>(p: Phase<C>, effects: seq<Effect<C>>): Option<Phase<C>>
    decreases |effects|
  {
    if |effects| == 0 then Some(p)
    else match Step(p, effects[0])
      case None => None
      case Some(q) => Replay(q, effects[1..])
  }

  /** Every subscription to a wrapper follows the lifecycle: it stays Idle
      when there is no anchor, and otherwise ends observed, or being
      dismissed when dispose asked for a dismissal. */
  lemma {:induction false} PresentUsingFollowsLifecycle<T, C>(kind: Trait, id: CoordinatorId, presenter: Option<Anchor>,
                                                             factory: CoordinatorId -> C, events: seq<Event<T>>,
                                                             view: ControllerView)
    requires Conforms(kind, events)
    ensures var r := PresentUsing(kind, id, presenter, factory, events, view);
      && (presenter.None? ==> Replay(Idle, r.effects) == Some(Idle))
      && (presenter.Some? && !view.isBeingDismissed && view.presenting.Some? ==>
            Replay(Idle, r.effects) == Some(Dismissing(factory(id))))
      && (presenter.Some? && (view.isBeingDismissed || view.presenting.None?) ==>
            Replay(Idle, r.effects) == Some(Observed(factory(id))))
  {
    var r := PresentUsing(kind, id, presenter, factory, events, view);
    if presenter.Some? {
      PresentationLogFollowsLifecycle(r.effects, id, presenter.value, factory(id), view);
    }
  }

  function CountShown<C>(effects: seq<Effect<C>>): nat {
    if |effects| == 0 then 0 else (if effects[0].Shown? then 1 else 0) + CountShown(effects[1..])
  }

  function CountDismissed<C>(effects: seq<Effect<C>>): nat {
    if |effects| == 0 then 0 else (if effects[0].Dismissed? then 1 else 0) + CountDismissed(effects[1..])
  }

  /** A log that follows the lifecycle presents at most once and dismisses at
      most once. */
  lemma {:induction false} LifecycleShowsAndDismissesOnce<C>(p: Phase<C>, effects: seq<Effect<C>>)
    requires Replay(p, effects).Some?
    ensures CountShown(effects) <= (if p.Idle? || p.Constructed? then 1 else 0)
    ensures CountDismissed(effects) <= (if p.Dismissing? then 0 else 1)
    decreases |effects|
  {
    if |effects| > 0 {
      var q := Step(p, effects[0]).value;
      LifecycleShowsAndDismissesOnce(q, effects[1..]);
    }
  }

  /** Counting presentations distributes over concatenated logs. */
  lemma {:induction false} CountShownAppend<C>(a: seq<Effect<C>>, b: seq<Effect<C>>)
    ensures CountShown(a + b) == CountShown(a) + CountShown(b)
    decreases |a|
  {
    if |a| == 0 {
      assert a + b == b;
    } else {
      assert (a + b)[0] == a[0];
      assert (a + b)[1..] == a[1..] + b;
      CountShownAppend(a[1..], b);
    }
  }

  /** The log of a subscription that presented `c` on `anchor`: built,
      shown, observed, and then whatever dispose asked of UIKit. */
  ghost predicate PresentationLog<C>(effects: seq<Effect<C>>, id: CoordinatorId, anchor: Anchor, c: C, view: ControllerView) {
    && |effects| >= 3
    && effects[..3] == [Built(c), Shown(anchor, c, true), Subscribed]
    && effects[3..] == Dispose(Coordinator(id, Some(c)), view)
  }

  /** Such a log follows the lifecycle to Dismissing when dispose asked for a
      dismissal and to Observed otherwise; it shows the controller once and
      dismisses it at most once. */
  lemma {:induction false} PresentationLogFollowsLifecycle<C>(effects: seq<Effect<C>>, id: CoordinatorId, anchor: Anchor,
                                                              c: C, view: ControllerView)
    requires PresentationLog(effects, id, anchor, c, view)
    ensures !view.isBeingDismissed && view.presenting.Some? ==> Replay(Idle, effects) == Some(Dismissing(c))
    ensures view.isBeingDismissed || view.presenting.None? ==> Replay(Idle, effects) == Some(Observed(c))
    ensures CountShown(effects) == 1
    ensures CountDismissed(effects) == |Dispose(Coordinator(id, Some(c)), view)|
  {
    var e := effects;
    var head := e[..3];
    var tail := e[3..];
    assert e[0] == Built(c) && e[1] == Shown(anchor, c, true) && e[2] == Subscribed;
    assert Replay(Idle, e) == Replay(Constructed(c), e[1..]);
    assert e[1..][1..] == e[2..];
    assert Replay(Constructed(c), e[1..]) == Replay(OnScreen(c), e[2..]);
    assert e[2..][1..] == e[3..];
    assert Replay(OnScreen(c), e[2..]) == Replay(Observed(c), e[3..]);
    if !view.isBeingDismissed && view.presenting.Some? {
      assert e[3..] == [Dismissed(view.presenting.value, true)];
      assert Replay(Observed(c), e[3..]) == Replay(Dismissing(c), []);
    } else {
      assert e[3..] == [];
    }
    assert e == head + tail;
    CountShownAppend(head, tail);
    CountDismissedAppend(head, tail);
    assert head[1..][1..][1..] == [];
    assert CountShown(head[1..][1..]) == 0 && CountDismissed(head[1..][1..]) == 0;
    assert CountShown(head[1..]) == 1 && CountDismissed(head[1..]) == 0;
    assert |tail| == 1 ==> tail[1..] == [];
  }

  /** Counting dismissals distributes over concatenated logs. */
  lemma {:induction false} CountDismissedAppend<C>(a: seq<Effect<C>>, b: seq<Effect<C>>)
    ensures CountDismissed(a + b) == CountDismissed(a) + CountDismissed(b)
    decreases |a|
  {
    if |a| == 0 {
      assert a + b == b;
    } else {
      assert (a + b)[0] == a[0];
      assert (a + b)[1..] == a[1..] + b;
      CountDismissedAppend(a[1..], b);
    }
  }

  /** With an anchor, a subscription shows its controller exactly once. */
  lemma PresentUsingShowsOnce<T, C>(kind: Trait, id: CoordinatorId, anchor: Anchor,
                                    factory: CoordinatorId -> C, events: seq<Event<T>>, view: ControllerView)
    requires Conforms(kind, events)
    ensures CountShown(PresentUsing(kind, id, Some(anchor), factory, events, view).effects) == 1
  {
    PresentationLogFollowsLifecycle(PresentUsing(kind, id, Some(anchor), factory, events, view).effects,
                                    id, anchor, factory(id), view);
  }
}

=== FILE: descriptions.dfy ===
/** `RxModalCustomStringConvertible` and `String(rxModalDescribing:)`: the
    short descriptions of the result and status enums the library returns,
    and the fallback for every other value. */
module Descriptions {
  import opened Base
  import MailComposing
  import MessageComposing
  import MediaPicker

  const UnknownCase: string := "@unknown"

  /** `MFMailComposeResult.rxModalDescription`. */
  function MailDescription(r: MailComposing.MailComposeResult): (s: string)
    ensures |s| > 0
    ensures s == UnknownCase <==> r.MailUnknown?
  {
    match r
    case MailCancelled => ".cancelled"
    case MailSaved => ".saved"
    case MailSent => ".sent"
    case MailFailed => ".failed"
    case MailUnknown(_) => UnknownCase
  }

  /** `MessageComposeResult.rxModalDescription`. */
  function MessageDescription(r: MessageComposing.MessageComposeResult): (s: string)
    ensures |s| > 0
    ensures s == UnknownCase <==> r.MessageUnknown?
  {
    match r
    case MessageCancelled => ".cancelled"
    case MessageSent => ".sent"
    case MessageFailed => ".failed"
    case MessageUnknown(_) => UnknownCase
  }

  /** `MPMediaLibraryAuthorizationStatus.rxModalDescription`. */
  function StatusDescription(s: MediaPicker.AuthorizationStatus): (d: string)
    ensures |d| > 0
    ensures d == UnknownCase <==> s.UnknownStatus?
  {
    match s
    case NotDetermined => ".notDetermined"
    case Denied => ".denied"
    case Restricted => ".restricted"
    case Authorized => ".authorized"
    case UnknownStatus(_) => UnknownCase
  }

  /** The reverse reading of each table: the known case a description
      names, if any. */
  function ParseMail(s: string): Option<MailComposing.MailComposeResult> {
    if s == ".cancelled" then Some(MailComposing.MailCancelled)
    else if s == ".saved" then Some(MailComposing.MailSaved)
    else if s == ".sent" then Some(MailComposing.MailSent)
    else if s == ".failed" then Some(MailComposing.MailFailed)
    else None
  }

  function ParseMessage(s: string): Option<MessageComposing.MessageComposeResult> {
    if s == ".cancelled" then Some(MessageComposing.MessageCancelled)
    else if s == ".sent" then Some(MessageComposing.MessageSent)
    else if s == ".failed" then Some(MessageComposing.MessageFailed)
    else None
  }

  function ParseStatus(s: string): Option<MediaPicker.AuthorizationStatus> {
    if s == ".notDetermined" then Some(MediaPicker.NotDetermined)
    else if s == ".denied" then Some(MediaPicker.Denied)
    else if s == ".restricted" then Some(MediaPicker.Restricted)
    else if s == ".authorized" then Some(MediaPicker.Authorized)
    else None
  }

  /** Every known case reads back from its description, and only the cases
      the library does not know describe as "@unknown", which reads back as
      nothing. */
  lemma DescriptionsRoundTrip(m: MailComposing.MailComposeResult, c: MessageComposing.MessageComposeResult,
                              a: MediaPicker.AuthorizationStatus)
    ensures !m.MailUnknown? ==> ParseMail(MailDescription(m)) == Some(m)
    ensures m.MailUnknown? ==> ParseMail(MailDescription(m)).None?
    ensures !c.MessageUnknown? ==> ParseMessage(MessageDescription(c)) == Some(c)
    ensures c.MessageUnknown? ==> ParseMessage(MessageDescription(c)).None?
    ensures !a.UnknownStatus? ==> ParseStatus(StatusDescription(a)) == Some(a)
    ensures a.UnknownStatus? ==> ParseStatus(StatusDescription(a)).None?
  {
  }

  /** Within each table, known cases have distinct descriptions. */
  lemma DescriptionsDistinguishKnownCases(m1: MailComposing.MailComposeResult, m2: MailComposing.MailComposeResult,
                                          c1: MessageComposing.MessageComposeResult, c2: MessageComposing.MessageComposeResult,
                                          a1: MediaPicker.AuthorizationStatus, a2: MediaPicker.AuthorizationStatus)
    requires !m1.MailUnknown? && !m2.MailUnknown?
    requires !c1.MessageUnknown? && !c2.MessageUnknown?
    requires !a1.UnknownStatus? && !a2.UnknownStatus?
    ensures MailDescription(m1) == MailDescription(m2) <==> m1 == m2
    ensures MessageDescription(c1) == MessageDescription(c2) <==> c1 == c2
    ensures StatusDescription(a1) == StatusDescription(a2) <==> a1 == a2
  {
    DescriptionsRoundTrip(m1, c1, a1);
    DescriptionsRoundTrip(m2, c2, a2);
  }

  /** A message and a mail result with the same meaning describe alike. */
  lemma ComposerDescriptionsAgree()
    ensures MessageDescription(MessageComposing.MessageCancelled) == MailDescription(MailComposing.MailCancelled)
    ensures MessageDescription(MessageComposing.MessageSent) == MailDescription(MailComposing.MailSent)
    ensures MessageDescription(MessageComposing.MessageFailed) == MailDescription(MailComposing.MailFailed)
  {
  }

  /** Any value handed to `String(rxModalDescribing:)`: one of the
      conforming enums, or something else with its `String(describing:)`. */
  datatype Value =
    | MailResult(mail: MailComposing.MailComposeResult)
    | MessageResult(message: MessageComposing.MessageComposeResult)
    | MediaStatus(status: MediaPicker.AuthorizationStatus)
    | Other(describing: string)

  predicate Conforming(v: Value) {
    !v.Other?
  }

  /** `String(rxModalDescribing:)`: a conforming value's own description,
      otherwise the plain description. */
  function Describing(v: Value): (s: string)
    ensures Conforming(v) ==> |s| > 0
    ensures !Conforming(v) ==> s == v.describing
    ensures v.MailResult? ==> s == MailDescription(v.mail)
    ensures v.MessageResult? ==> s == MessageDescription(v.message)
    ensures v.MediaStatus? ==> s == StatusDescription(v.status)
  {
    match v
    case MailResult(m) => MailDescription(m)
    case MessageResult(c) => MessageDescription(c)
    case MediaStatus(a) => StatusDescription(a)
    case Other(d) => d
  }

  /** What `String(rxModalDescribing:)` gives for a conforming value names
      that value: it reads back through the value's own table, and it is
      "@unknown" exactly for a case the table does not know. */
  lemma DescribingReadsBack(v: Value)
    requires Conforming(v)
    ensures v.MailResult? && !v.mail.MailUnknown? ==> ParseMail(Describing(v)) == Some(v.mail)
    ensures v.MessageResult? && !v.message.MessageUnknown? ==> ParseMessage(Describing(v)) == Some(v.message)
    ensures v.MediaStatus? && !v.status.UnknownStatus? ==> ParseStatus(Describing(v)) == Some(v.status)
    ensures Describing(v) == UnknownCase <==>
      (v.MailResult? && v.mail.MailUnknown?) || (v.MessageResult? && v.message.MessageUnknown?)
      || (v.MediaStatus? && v.status.UnknownStatus?)
  {
    match v
    case MailResult(m) => DescriptionsRoundTrip(m, MessageComposing.MessageSent, MediaPicker.Authorized);
    case MessageResult(c) => DescriptionsRoundTrip(MailComposing.MailSent, c, MediaPicker.Authorized);
    case MediaStatus(a) => DescriptionsRoundTrip(MailComposing.MailSent, MessageComposing.MessageSent, a);
  }
}

=== FILE: dialogs.dfy ===
/** Dialog and DialogAction: the immutable description of an alert or action
    sheet. An action has a title, a style, a flag marking it preferred, and
    `onNext`, the sequence it produces from the texts of the dialog's text
    fields when it is tapped. */
module Dialogs {
  import opened Base
  import opened Rx

  /** The texts of the dialog's text fields at the moment an action is
      tapped, in the order the fields were added. */
  type Fields = seq<string>

  datatype DialogActionStyle = Default | Cancel | Destructive

  /** A text field to add to the dialog. Its configuration closure only sets
      UIKit properties; it is kept as an opaque token. */
  datatype DialogTextField = DialogTextField(configuration: nat)

  datatype DialogAction<T> = DialogAction(title: string, style: DialogActionStyle,
                                          onNext: Fields -> seq<Event<T>>, isPreferred: bool)

  datatype Dialog<T> = Dialog(title: Option<string>, message: Option<string>,
                              textFields: seq<DialogTextField>, actions: seq<DialogAction<T>>)

  /** `Dialog.init`. Its assertion makes a non-empty action list the caller's
      obligation; every field is stored as given, actions in order. */
  function MakeDialog<T>(title: Option<string>, message: Option<string>,
                         textFields: seq<DialogTextField>, actions: seq<DialogAction<T>>): (d: Dialog<T>)
    requires |actions| > 0
    ensures |d.actions| > 0
    ensures d.title == title && d.message == message
    ensures d.textFields == textFields && d.actions == actions
  {
    Dialog(title, message, textFields, actions)
  }

  /** `DialogAction.init`, whose `isPreferred` defaults to false. */
  function MakeAction<T>(title: string, style: DialogActionStyle, onNext: Fields -> seq<Event<T>>): (a: DialogAction<T>)
    ensures !a.isPreferred
    ensures a.title == title && a.style == style && a.onNext == onNext
  {
    DialogAction(title, style, onNext, false)
  }

  /** `withStyle(_:)`: the same action with another style. */
  function WithStyle<T>(a: DialogAction<T>, newStyle: DialogActionStyle): (r: DialogAction<T>)
    ensures r.style == newStyle
    ensures r.title == a.title && r.onNext == a.onNext && r.isPreferred == a.isPreferred
  {
    DialogAction(a.title, newStyle, a.onNext, a.isPreferred)
  }

  /** `preferred(_:)`: the same action, marked preferred. */
  function Preferred<T>(a: DialogAction<T>): (r: DialogAction<T>)
    ensures r.isPreferred
    ensures r.title == a.title && r.style == a.style && r.onNext == a.onNext
  {
    DialogAction(a.title, a.style, a.onNext, true)
  }

  /** Restyling and marking preferred touch disjoint fields: marking twice is
      marking once, the last style wins, restyling to the current style
      changes nothing, and the two updates commute. */
  lemma ActionUpdatesCompose<T>(a: DialogAction<T>, s1: DialogActionStyle, s2: DialogActionStyle)
    ensures Preferred(Preferred(a)) == Preferred(a)
    ensures WithStyle(WithStyle(a, s1), s2) == WithStyle(a, s2)
    ensures WithStyle(a, a.style) == a
    ensures WithStyle(Preferred(a), s1) == Preferred(WithStyle(a, s1))
  {
  }

  /** Every sequence the action can produce follows RxSwift's grammar, as an
      Observable does. */
  ghost predicate Lawful<T>(a: DialogAction<T>) {
    forall fields :: WellFormed(a.onNext(fields))
  }

  /** `.default`/`.cancel`/`.destructive(title:flatMap:)`, the style named by
      the factory given as `style`: the closure's sequence for the tapped
      fields. */
  function FlatMapAction<T>(style: DialogActionStyle, title: string, observable: Fields -> seq<Event<T>>): (a: DialogAction<T>)
    ensures a.title == title && a.style == style && !a.isPreferred
    ensures forall fields :: a.onNext(fields) == observable(fields)
  {
    MakeAction(title, style, (fields: Fields) => observable(fields))
  }

  /** `…(title:flatMapTo:)`: one fixed sequence, whatever the fields. */
  function FlatMapToAction<T>(style: DialogActionStyle, title: string, observable: seq<Event<T>>): (a: DialogAction<T>)
    ensures a.title == title && a.style == style && !a.isPreferred
    ensures forall fields :: a.onNext(fields) == observable
  {
    MakeAction(title, style, (_: Fields) => observable)
  }

  /** `…(title:map:)`: exactly one value, computed from the fields, then
      completion. */
  function MapAction<T>(style: DialogActionStyle, title: string, value: Fields -> T): (a: DialogAction<T>)
    ensures a.title == title && a.style == style && !a.isPreferred
    ensures forall fields :: a.onNext(fields) == [Next(value(fields)), Completed]
  {
    FlatMapAction(style, title, (fields: Fields) => Just(value(fields)))
  }

  /** `…(title:mapTo:)`: exactly the given value, then completion. */
  function MapToAction<T>(style: DialogActionStyle, title: string, value: T): (a: DialogAction<T>)
    ensures a.title == title && a.style == style && !a.isPreferred
    ensures forall fields :: a.onNext(fields) == [Next(value), Completed]
  {
    FlatMapToAction(style, title, Just(value))
  }

  /** `…(title:throw:)`: the given error and nothing else. */
  function ThrowAction<T>(style: DialogActionStyle, title: string, error: Failure): (a: DialogAction<T>)
    ensures a.title == title && a.style == style && !a.isPreferred
    ensures forall fields :: a.onNext(fields) == [Error(error)]
  {
    FlatMapToAction(style, title, [Error(error)])
  }

  /** `…(title:)`: completion without a value. */
  function NoValueAction<T>(style: DialogActionStyle, title: string): (a: DialogAction<T>)
    ensures a.title == title && a.style == style && !a.isPreferred
    ensures forall fields :: a.onNext(fields) == [Completed]
  {
    FlatMapToAction(style, title, [Completed])
  }

  /** The value, error and no-value factories always describe lawful
      sequences, and restyling or marking preferred keeps an action lawful. */
  lemma FactoriesAreLawful<T>(style: DialogActionStyle, title: string, value: Fields -> T, v: T, error: Failure, a: DialogAction<T>)
    ensures Lawful(MapAction(style, title, value))
    ensures Lawful(MapToAction(style, title, v))
    ensures Lawful(ThrowAction<T>(style, title, error))
    ensures Lawful(NoValueAction<T>(style, title))
    ensures Lawful(a) ==> Lawful(WithStyle(a, style)) && Lawful(Preferred(a))
  {
  }

  /** The element-discarding `.map { _ in () }` of the `T == Void` overloads. */
  function Discard<U>(s: seq<Event<U>>): seq<Event<()>> {
    MapEvents(s, (_: U) => ())
  }

  /** `…(title:flatMap:)` for `DialogAction<Void>`: the closure's sequence
      with every element replaced by `()`, keeping the number of events,
      their order and the way the sequence ends. */
  function VoidFlatMapAction<U>(style: DialogActionStyle, title: string, observable: Fields -> seq<Event<U>>): (a: DialogAction<()>)
    ensures a.title == title && a.style == style && !a.isPreferred
    ensures forall fields :: SameShape(observable(fields), a.onNext(fields))
  {
    MakeAction(title, style, (fields: Fields) => Discard(observable(fields)))
  }

  /** `…(title:flatMapTo:)` for `DialogAction<Void>`. */
  function VoidFlatMapToAction<U>(style: DialogActionStyle, title: string, observable: seq<Event<U>>): (a: DialogAction<()>)
    ensures a.title == title && a.style == style && !a.isPreferred
    ensures forall fields :: SameShape(observable, a.onNext(fields))
  {
    MakeAction(title, style, (_: Fields) => Discard(observable))
  }
}

=== FILE: internals.dfy ===
/** The library's `..` operator: copy a value, let a closure configure the
    copy, return the copy. */
module Internals {

  /** `x .. configuration`. The closure receives the copy, never the
      operand, so the operand is unchanged; it is applied exactly once. */
  function Configure<T>(operand: T, configuration: T -> T): T {
    configuration(operand)
  }

  /** A configuration that changes nothing returns a value equal to the
      operand. */
  lemma ConfigureIdentity<T>(operand: T)
    ensures Configure(operand, (x: T) => x) == operand
  {
  }

  /** Configuring twice is configuring once with both closures, in order. */
  lemma ConfigureChains<T>(operand: T, first: T -> T, second: T -> T)
    ensures Configure(Configure(operand, first), second) == Configure(operand, (x: T) => second(first(x)))
  {
  }

  /** A closure instrumented to count its own calls. */
  function Counted<T>(configuration: T -> T): ((T, int)) -> (T, int) {
    (p: (T, int)) => (configuration(p.0), p.1 + 1)
  }

  /** The configuration closure runs exactly once per use of the operator. */
  lemma ConfigureRunsOnce<T>(operand: T, calls: int, configuration: T -> T)
    ensures Configure((operand, calls), Counted(configuration)) == (configuration(operand), calls + 1)
  {
  }
}

=== FILE: legacy_dialogs.dfy ===
/** The older Dialog and DialogAction, in which an action's `onNext` is one
    fixed sequence rather than a function of text fields, and a dialog has no
    text fields. */
module LegacyDialogs {
  import opened Base
  import opened Rx
  import Dialogs

  datatype DialogAction<T> = DialogAction(title: string, style: Dialogs.DialogActionStyle,
                                          onNext: seq<Event<T>>, isPreferred: bool)

  datatype Dialog<T> = Dialog(title: Option<string>, message: Option<string>, actions: seq<DialogAction<T>>)

  /** `Dialog.init`: at least one action is the caller's obligation; the
      fields are stored as given. */
  function MakeDialog<T>(title: Option<string>, message: Option<string>, actions: seq<DialogAction<T>>): (d: Dialog<T>)
    requires |actions| > 0
    ensures |d.actions| > 0
    ensures d.title == title && d.message == message && d.actions == actions
  {
    Dialog(title, message, actions)
  }

  /** `DialogAction.init`, whose `isPreferred` defaults to false. */
  function MakeAction<T>(title: string, style: Dialogs.DialogActionStyle, onNext: seq<Event<T>>): (a: DialogAction<T>)
    ensures !a.isPreferred
    ensures a.title == title && a.style == style && a.onNext == onNext
  {
    DialogAction(title, style, onNext, false)
  }

  /** `withStyle(_:)`: only the style changes, as in the newer action. */
  function WithStyle<T>(a: DialogAction<T>, newStyle: Dialogs.DialogActionStyle): (r: DialogAction<T>)
    ensures r.style == newStyle
    ensures r.title == a.title && r.onNext == a.onNext && r.isPreferred == a.isPreferred
    ensures Upgrade(r) == Dialogs.WithStyle(Upgrade(a), newStyle)
  {
    DialogAction(a.title, newStyle, a.onNext, a.isPreferred)
  }

  /** `preferred(_:)`: only the flag changes, to true, as in the newer
      action. */
  function Preferred<T>(a: DialogAction<T>): (r: DialogAction<T>)
    ensures r.isPreferred
    ensures r.title == a.title && r.style == a.style && r.onNext == a.onNext
    ensures Upgrade(r) == Dialogs.Preferred(Upgrade(a))
  {
    DialogAction(a.title, a.style, a.onNext, true)
  }

  /** Marking preferred is idempotent and the last style wins. */
  lemma ActionUpdatesCompose<T>(a: DialogAction<T>, s1: Dialogs.DialogActionStyle, s2: Dialogs.DialogActionStyle)
    ensures Preferred(Preferred(a)) == Preferred(a)
    ensures WithStyle(WithStyle(a, s1), s2) == WithStyle(a, s2)
  {
  }

  /** `…(title:flatMapTo:)`. */
  function FlatMapToAction<T>(style: Dialogs.DialogActionStyle, title: string, observable: seq<Event<T>>): (a: DialogAction<T>)
    ensures a.title == title && a.style == style && !a.isPreferred && a.onNext == observable
  {
    MakeAction(title, style, observable)
  }

  /** `…(title:mapTo:)`: one value, then completion. */
  function MapToAction<T>(style: Dialogs.DialogActionStyle, title: string, value: T): (a: DialogAction<T>)
    ensures a.title == title && a.style == style && !a.isPreferred
    ensures a.onNext == [Next(value), Completed]
  {
    FlatMapToAction(style, title, Just(value))
  }

  /** `…(title:throw:)`: the error alone. */
  function ThrowAction<T>(style: Dialogs.DialogActionStyle, title: string, error: Failure): (a: DialogAction<T>)
    ensures a.title == title && a.style == style && !a.isPreferred
    ensures a.onNext == [Error(error)]
  {
    FlatMapToAction(style, title, [Error(error)])
  }

  /** `…(title:)`: immediate completion. */
  function NoValueAction<T>(style: Dialogs.DialogActionStyle, title: string): (a: DialogAction<T>)
    ensures a.title == title && a.style == style && !a.isPreferred
    ensures a.onNext == [Completed]
  {
    FlatMapToAction(style, title, [Completed])
  }

  /** An older action read as a newer one: it ignores the text fields. */
  function Upgrade<T>(a: DialogAction<T>): (r: Dialogs.DialogAction<T>)
    ensures r.title == a.title && r.style == a.style && r.isPreferred == a.isPreferred
    ensures forall fields :: r.onNext(fields) == a.onNext
  {
    Dialogs.DialogAction(a.title, a.style, (_: Dialogs.Fields) => a.onNext, a.isPreferred)
  }

  /** The two generations of the factories agree: an older action behaves,
      on every tap, as the newer action built the same way. */
  lemma GenerationsAgree<T>(style: Dialogs.DialogActionStyle, title: string, value: T, error: Failure,
                            fields: Dialogs.Fields)
    ensures Upgrade(MapToAction(style, title, value)).onNext(fields)
         == Dialogs.MapToAction(style, title, value).onNext(fields)
    ensures Upgrade(ThrowAction<T>(style, title, error)).onNext(fields)
         == Dialogs.ThrowAction<T>(style, title, error).onNext(fields)
    ensures Upgrade(NoValueAction<T>(style, title)).onNext(fields)
         == Dialogs.NoValueAction<T>(style, title).onNext(fields)
  {
  }
}

=== FILE: media_picker.dfy ===
/** `RxModal.mediaPicker`: an MPMediaPickerController presented through a
    coordinator, behind the media library authorization status. */
module MediaPicker {
  import opened Base
  import opened Rx
  import opened Coordinator
  import opened Authorization
  import opened Internals

  datatype AuthorizationStatus = NotDetermined | Denied | Restricted | Authorized | UnknownStatus(raw: int)

  datatype MediaItem = MediaItem(persistentId: nat)

  type MediaItemCollection = seq<MediaItem>

  /** The status Single and whether the system prompt was requested. */
  datatype StatusQuery = StatusQuery(status: seq<Event<AuthorizationStatus>>, prompted: bool)

  /** `mediaLibraryAuthorizationStatus`, read when subscribed to. `current` is
      the system's status at that moment and `answer` the status the prompt
      reported, if it has. A determined status is returned as is, without a
      prompt; an undetermined one prompts, and the answer is the result. */
  function MediaLibraryAuthorizationStatus(current: AuthorizationStatus, answer: Option<AuthorizationStatus>): (q: StatusQuery)
    ensures Conforms(SingleTrait, q.status)
    ensures q.prompted <==> current.NotDetermined?
    ensures !current.NotDetermined? ==> q.status == [Next(current), Completed]
    ensures current.NotDetermined? && answer.Some? ==> q.status == [Next(answer.value), Completed]
    ensures current.NotDetermined? && answer.None? ==> q.status == []
  {
    if !current.NotDetermined? then StatusQuery(Just(current), false)
    else match answer
      case None => StatusQuery([], true)
      case Some(s) => StatusQuery(Just(s), true)
  }

  /** The delegate call the picker makes. */
  datatype PickerCallback = DidPick(collection: MediaItemCollection) | DidCancel

  /** What the coordinator's subject receives: the picked collection, or an
      empty one on cancel, and in both cases completion; never an error. */
  function PickerEvents(callback: Option<PickerCallback>): (s: seq<Event<MediaItemCollection>>)
    ensures callback.None? ==> s == []
    ensures callback.Some? ==> Conforms(SingleTrait, s) && |s| == 2 && s[0].Next?
    ensures callback == Some(DidCancel) ==> s[0].value == []
    ensures callback.Some? && callback.value.DidPick? ==> s[0].value == callback.value.collection
  {
    match callback
    case None => []
    case Some(DidPick(items)) => Just(items)
    case Some(DidCancel) => Just([])
  }

  /** The controller factory: a new picker, `..` the caller's configuration
      followed by the delegate assignment. Whatever the configuration does,
      the coordinator ends up the delegate, the controller stays a picker,
      and the rest of what the configuration set is kept. */
  function MakePicker(delegate: CoordinatorId, configuration: ViewController -> ViewController): (c: ViewController)
    ensures c.delegate == Some(delegate)
    ensures c.kind == MediaPickerController
    ensures c.settings == configuration(ViewController(MediaPickerController, None, [])).settings
  {
    Configure(ViewController(MediaPickerController, None, []),
              (p: ViewController) => configuration(p).(kind := MediaPickerController, delegate := Some(delegate)))
  }

  /** The statuses that let the picker through. */
  predicate Permits(s: AuthorizationStatus) {
    s == Authorized || s == Restricted
  }

  /** The status the query settles on, if it has settled. */
  function SettledStatus(current: AuthorizationStatus, answer: Option<AuthorizationStatus>): Option<AuthorizationStatus> {
    if current.NotDetermined? then answer else Some(current)
  }

  /** One subscription to `mediaPicker`. */
  datatype PickerRun = PickerRun(events: seq<Event<MediaItemCollection>>, effects: seq<Effect<ViewController>>, prompted: bool)

  /** `mediaPicker(presenter:configuration:)`: the coordinator wrapper,
      `require`d to have status authorized or restricted. The picker is
      presented exactly when the status settles on one of those and there is
      an anchor; any other settled status fails with `authorizationDenied`
      before anything is built. */
  function MediaPickerRun(current: AuthorizationStatus, answer: Option<AuthorizationStatus>,
                          id: CoordinatorId, presenter: Option<Anchor>,
                          configuration: ViewController -> ViewController,
                          callback: Option<PickerCallback>, view: ControllerView): (r: PickerRun)
    ensures Conforms(SingleTrait, r.events)
    ensures r.prompted <==> current.NotDetermined?
    ensures |r.effects| > 0 <==>
      SettledStatus(current, answer).Some? && Permits(SettledStatus(current, answer).value) && presenter.Some?
    ensures SettledStatus(current, answer).None? ==> r.events == []
    ensures SettledStatus(current, answer).Some? && !Permits(SettledStatus(current, answer).value) ==>
      r.events == [Error(AuthorizationDenied("MPMediaLibraryAuthorizationStatus"))]
    ensures SettledStatus(current, answer).Some? && Permits(SettledStatus(current, answer).value) ==>
      && (presenter.None? ==> r.events == [Error(MissingPresenter)])
      && (presenter.Some? ==>
            && r.events == PickerEvents(callback)
            && |r.effects| >= 3
            && r.effects[..3] == [Built(MakePicker(id, configuration)),
                                  Shown(presenter.value, MakePicker(id, configuration), true), Subscribed]
            && r.effects[3..] == Dispose(Coordinator(id, Some(MakePicker(id, configuration))), view))
  {
    var q := MediaLibraryAuthorizationStatus(current, answer);
    var presented := PresentUsing(SingleTrait, id, presenter, (i: CoordinatorId) => MakePicker(i, configuration),
                                  AsSingle(PickerEvents(callback)), view);
    var gated := Require(SingleTrait, presented.events, q.status, [Authorized, Restricted], "MPMediaLibraryAuthorizationStatus");
    PickerRun(gated.events, if gated.subscribed then presented.effects else [], q.prompted)
  }

  /** A subscription follows the coordinator's lifecycle: it stays Idle
      unless the status settles on one the picker needs and there is an
      anchor, and otherwise shows the picker once and ends observed, or being
      dismissed when dispose asked for a dismissal. */
  lemma MediaPickerFollowsLifecycle(current: AuthorizationStatus, answer: Option<AuthorizationStatus>,
                                    id: CoordinatorId, presenter: Option<Anchor>,
                                    configuration: ViewController -> ViewController,
                                    callback: Option<PickerCallback>, view: ControllerView)
    ensures var r := MediaPickerRun(current, answer, id, presenter, configuration, callback, view);
      var shown := SettledStatus(current, answer).Some? && Permits(SettledStatus(current, answer).value) && presenter.Some?;
      && (!shown ==> Replay(Idle, r.effects) == Some(Idle) && CountShown(r.effects) == 0)
      && (shown ==>
            && CountShown(r.effects) == 1
            && Replay(Idle, r.effects) == Some(if !view.isBeingDismissed && view.presenting.Some?
                                               then Dismissing(MakePicker(id, configuration))
                                               else Observed(MakePicker(id, configuration))))
  {
    var r := MediaPickerRun(current, answer, id, presenter, configuration, callback, view);
    if SettledStatus(current, answer).Some? && Permits(SettledStatus(current, answer).value) && presenter.Some? {
      PresentationLogFollowsLifecycle(r.effects, id, presenter.value, MakePicker(id, configuration), view);
    }
  }
}

=== FILE: rx.dfy ===
/** The part of RxSwift the library relies on, stated over finite event lists.
    A sequence is modelled by the events one subscriber observes, in order,
    from the moment it subscribes until its subscription ends; a list with no
    terminal event is a subscription that ended (was disposed) before the
    sequence terminated. */
module Rx {
  import opened Base

  datatype Event<+T> = Next(value: T) | Error(error: Failure) | Completed

  /** RxSwift's grammar: nothing follows a terminal event. */
  predicate WellFormed<T>(s: seq<Event<T>>) {
    forall i :: 0 <= i < |s| - 1 ==> s[i].Next?
  }

  /** The sequence has delivered its terminal event. */
  predicate Terminated<T>(s: seq<Event<T>>) {
    |s| > 0 && !s[|s| - 1].Next?
  }

  /** Observable.just(v) */
  function Just<T>(v: T): seq<Event<T>> {
    [Next(v), Completed]
  }

  /** The four kinds of sequence the library returns. */
  datatype Trait = CompletableTrait | SingleTrait | MaybeTrait | ObservableTrait

  /** What a subscriber of each kind can observe: a Completable completes or
      fails, a Single succeeds with one element or fails, a Maybe may also
      complete empty, an Observable follows the general grammar. The empty
      list is a subscription that ended first. */
  predicate Conforms<T>(kind: Trait, s: seq<Event<T>>) {
    match kind
    case CompletableTrait =>
      |s| == 0 || (|s| == 1 && !s[0].Next?)
    case SingleTrait =>
      |s| == 0 || (|s| == 1 && s[0].Error?) || (|s| == 2 && s[0].Next? && s[1].Completed?)
    case MaybeTrait =>
      |s| == 0 || (|s| == 1 && !s[0].Next?) || (|s| == 2 && s[0].Next? && s[1].Completed?)
    case ObservableTrait =>
      WellFormed(s)
  }

  function MapEvent<T, U>(e: Event<T>, f: T -> U): Event<U> {
    match e
    case Next(v) => Next(f(v))
    case Error(x) => Error(x)
    case Completed => Completed
  }

  /** `t` has the events of `s` with the elements replaced: the same length,
      the same kind of event at every position, the same errors. */
  predicate SameShape<T, U>(s: seq<Event<T>>, t: seq<Event<U>>) {
    && |s| == |t|
    && forall i :: 0 <= i < |s| ==>
         && (s[i].Next? <==> t[i].Next?)
         && (s[i].Completed? <==> t[i].Completed?)
         && (s[i].Error? ==> t[i].Error? && t[i].error == s[i].error)
  }

  /** Observable.map: every element is transformed, errors and completion
      pass through in place. */
  function MapEvents<T, U>(s: seq<Event<T>>, f: T -> U): (r: seq<Event<U>>)
    ensures SameShape(s, r)
    ensures forall i :: 0 <= i < |s| && s[i].Next? ==> r[i] == Next(f(s[i].value))
  {
    seq(|s|, i requires 0 <= i < |s| => MapEvent(s[i], f))
  }

  /** The elements a sequence delivers before its first terminal event. */
  function Leading<T>(s: seq<Event<T>>): (r: seq<Event<T>>)
    ensures |r| <= |s|
    ensures forall i :: 0 <= i < |r| ==> r[i] == s[i] && s[i].Next?
    ensures |r| < |s| ==> !s[|r|].Next?
    decreases |s|
  {
    if |s| == 0 || !s[0].Next? then [] else [s[0]] + Leading(s[1..])
  }

  /** A well-formed sequence is its leading elements followed by at most one
      terminal event. */
  lemma LeadingSplit<T>(s: seq<Event<T>>)
    requires WellFormed(s)
    ensures |Leading(s)| == |s| || (|Leading(s)| == |s| - 1 && !s[|s| - 1].Next?)
    ensures s == Leading(s) + s[|Leading(s)|..]
  {
    var r := Leading(s);
    assert s[..|r|] == r;
  }

  /** Observable.merge over a sequence of inner sequences, where each inner
      sequence delivers its events as soon as it is emitted. The first error,
      outer or inner, ends the merged sequence. `live` records that an earlier
      inner sequence has not terminated yet, in which case the outer
      completion does not complete the merged sequence. */
  function Merge<T>(outer: seq<Event<seq<Event<T>>>>, live: bool): (r: seq<Event<T>>)
    ensures WellFormed(r)
    ensures live ==> forall i :: 0 <= i < |r| ==> !r[i].Completed?
    decreases |outer|
  {
    if |outer| == 0 then []
    else match outer[0]
      case Error(e) => [Error(e)]
      case Completed => if live then [] else [Completed]
      case Next(inner) =>
        var vs := Leading(inner);
        if |vs| < |inner| && inner[|vs|].Error? then vs + [inner[|vs|]]
        else vs + Merge(outer[1..], live || |vs| == |inner|)
  }

  /** Merging an outer sequence that emits one inner sequence and completes
      yields exactly the inner sequence's events. */
  lemma {:induction false} MergeOfOne<T>(inner: seq<Event<T>>)
    requires WellFormed(inner)
    ensures Merge([Next(inner), Completed], false) == inner
  {
    var outer: seq<Event<seq<Event<T>>>> := [Next(inner), Completed];
    var vs := Leading(inner);
    LeadingSplit(inner);
    assert outer[1..] == [Completed];
    if |vs| < |inner| && inner[|vs|].Error? {
      assert inner == vs + [inner[|vs|]];
    } else if |vs| == |inner| {
      assert Merge(outer[1..], true) == [];
      assert vs == inner;
    } else {
      assert Merge(outer[1..], false) == [Completed];
      assert inner == vs + [Completed];
    }
  }

  /** Observable.flatMap: map every element to an inner sequence and merge. */
  function FlatMap<S, T>(outer: seq<Event<S>>, k: S -> seq<Event<T>>): (r: seq<Event<T>>)
    ensures WellFormed(r)
  {
    Merge(MapEvents(outer, k), false)
  }

  /** flatMap, flatMapMaybe and flatMapCompletable on a Single: the
      continuation is subscribed to only once the Single succeeds, and its
      events are forwarded as they come; a failure of the Single is forwarded
      instead. */
  function AndThen<S, T>(single: seq<Event<S>>, k: S -> seq<Event<T>>): seq<Event<T>>
    requires Conforms(SingleTrait, single)
  {
    if |single| == 0 then []
    else if single[0].Error? then [Error(single[0].error)]
    else k(single[0].value)
  }

  /** Lifting a Single to an Observable and flat-mapping it agrees with the
      Single's own flatMap whenever the continuation is well formed. */
  lemma {:induction false} FlatMapOfSingle<S, T>(single: seq<Event<S>>, k: S -> seq<Event<T>>)
    requires Conforms(SingleTrait, single)
    requires |single| == 2 ==> WellFormed(k(single[0].value))
    ensures FlatMap(single, k) == AndThen(single, k)
  {
    var outer := MapEvents(single, k);
    if |single| == 0 {
    } else if single[0].Error? {
      assert outer == [Error(single[0].error)];
    } else {
      assert outer == [Next(k(single[0].value)), Completed];
      MergeOfOne(k(single[0].value));
    }
  }

  /** Observable.asSingle: one element followed by completion is a success;
      completion without an element, or a second element, is an error; an
      element not yet followed by completion is not a result yet. */
  function AsSingle<T>(s: seq<Event<T>>): (r: seq<Event<T>>)
    ensures Conforms(SingleTrait, r)
    ensures Conforms(SingleTrait, s) ==> r == s
    ensures |r| == 2 ==> |s| >= 2 && r == s[..2]
    ensures |s| > 0 && s[0].Completed? ==> r == [Error(NoElements)]
    ensures |s| >= 2 && s[0].Next? && s[1].Next? ==> r == [Error(MoreThanOneElement)]
    ensures |s| >= 2 && s[0].Next? && s[1].Error? ==> r == [s[1]]
    ensures |s| == 1 && s[0].Next? ==> r == []
  {
    if |s| == 0 then []
    else if s[0].Error? then [s[0]]
    else if s[0].Completed? then [Error(NoElements)]
    else if |s| == 1 then []
    else if s[1].Next? then [Error(MoreThanOneElement)]
    else if s[1].Error? then [s[1]]
    else [s[0], s[1]]
  }
}

=== FILE: web_auth.dfy ===
/** `RxModal.webAuthenticationSession`: an ASWebAuthenticationSession owned by
    a coordinator that `using` creates per subscription. The coordinator
    builds the session with a completion handler feeding a subject, applies
    the caller's configuration, finds the window to anchor the session on
    (from iOS 13), and starts the session; disposing cancels it. */
module WebAuth {
  import opened Base
  import opened Rx

  type Url = string

  /** The window the presenter's view lives in. */
  datatype Window = Window(id: nat)

  /** What the coordinator asks of the session, in order. */
  datatype SessionEffect =
    | Configured                   // the caller's configuration closure ran on the session
    | ContextProvided(window: Window)  // the coordinator became the presentation context provider
    | Started                      // session.start()
    | ResultSubscribed             // `result.asSingle()` was subscribed to
    | Cancelled                    // session.cancel(), from dispose

  /** The arguments the session passes to its completion handler. */
  datatype Completion = Completion(callbackUrl: Option<Url>, error: Option<Failure>)

  /** The completion handler: an error wins, even over a URL; no error and no
      URL is `unsupported`; otherwise the URL, then completion. */
  function CompletionEvents(c: Completion): (s: seq<Event<Url>>)
    ensures Conforms(SingleTrait, s) && Terminated(s)
    ensures c.error.Some? ==> s == [Error(c.error.value)]
    ensures c.error.None? && c.callbackUrl.None? ==> s == [Error(Unsupported)]
    ensures c.error.None? && c.callbackUrl.Some? ==> s == [Next(c.callbackUrl.value), Completed]
  {
    match c.error
    case Some(e) => [Error(e)]
    case None =>
      match c.callbackUrl
      case None => [Error(Unsupported)]
      case Some(url) => [Next(url), Completed]
  }

  /** The handler succeeds exactly when there is no error and there is a URL,
      and then with that URL. */
  lemma CompletionSucceedsIff(c: Completion)
    ensures CompletionEvents(c)[0].Next? <==> c.error.None? && c.callbackUrl.Some?
    ensures CompletionEvents(c)[0].Next? ==> Some(CompletionEvents(c)[0].value) == c.callbackUrl
  {
  }

  /** The coordinator's initializer: its effects and the error it threw. */
  datatype SessionStart = SessionStart(effects: seq<SessionEffect>, failure: Option<Failure>)

  /** `RxWebAuthenticationSessionCoordinator.init`. `needsWindow` is the
      `#available(iOS 13.0, *)` branch and `window` the window of the
      presenter's loaded view. The configuration runs first, even when the
      initializer then throws `missingPresenter`; `start()` comes last and only
      when nothing was thrown. */
  function StartSession(needsWindow: bool, window: Option<Window>): (r: SessionStart)
    ensures |r.effects| > 0 && r.effects[0] == Configured
    ensures r.failure.Some? <==> needsWindow && window.None?
    ensures r.failure.Some? ==> r.failure.value == MissingPresenter && Started !in r.effects
    ensures r.failure.None? ==>
      && r.effects[|r.effects| - 1] == Started
      && Started !in r.effects[..|r.effects| - 1]
    ensures needsWindow && window.Some? ==> ContextProvided(window.value) in r.effects
  {
    if !needsWindow then SessionStart([Configured, Started], None)
    else match window
      case None => SessionStart([Configured], Some(MissingPresenter))
      case Some(w) => SessionStart([Configured, ContextProvided(w), Started], None)
  }

  /** One subscription to `webAuthenticationSession`: what the subscriber
      observed, and what was asked of the session. */
  datatype SessionRun = SessionRun(events: seq<Event<Url>>, effects: seq<SessionEffect>)

  /** `webAuthenticationSession(presenter:url:callbackURLScheme:configuration:)`.
      `completion` is the handler's call, if the session finished after
      `result.asSingle()` was subscribed and before the subscription ended.
      `start()` runs in `using`'s resource factory, before that
      subscription, so a handler called during `start()` reaches a subject
      nobody observes yet: the event is lost and the Single never resolves,
      which is the run with no completion. A throwing initializer is the
      only event and no session is started or cancelled; otherwise the
      initializer's effects come first, then the subscriber observes the
      handler's outcome and `using` cancels the session when the
      subscription ends. */
  function WebAuthenticationSession(needsWindow: bool, window: Option<Window>, completion: Option<Completion>): (r: SessionRun)
    ensures Conforms(SingleTrait, r.events)
    ensures needsWindow && window.None? ==>
      r.events == [Error(MissingPresenter)] && r.effects == [Configured]
    ensures !(needsWindow && window.None?) ==>
      && |r.effects| >= 2
      && r.effects[|r.effects| - 1] == Cancelled
      && Cancelled !in r.effects[..|r.effects| - 1]
      && r.effects[|r.effects| - 2] == ResultSubscribed
      && r.events == (if completion.Some? then CompletionEvents(completion.value) else [])
    ensures !(needsWindow && window.None?) ==>
      r.effects == StartSession(needsWindow, window).effects + [ResultSubscribed, Cancelled]
  {
    var start := StartSession(needsWindow, window);
    match start.failure
    case Some(e) => SessionRun([Error(e)], start.effects)
    case None =>
      var delivered := if completion.Some? then CompletionEvents(completion.value) else [];
      SessionRun(AsSingle(delivered), start.effects + [ResultSubscribed, Cancelled])
  }

  /** Every subscription that gets past the initializer configures the
      session first, starts it exactly once, and subscribes to the result
      only after that start. */
  lemma SessionStartsBeforeSubscribed(needsWindow: bool, window: Option<Window>, completion: Option<Completion>)
    requires !(needsWindow && window.None?)
    ensures var r := WebAuthenticationSession(needsWindow, window, completion);
      && |r.effects| >= 4
      && r.effects[0] == Configured
      && r.effects[|r.effects| - 3] == Started
      && Started !in r.effects[..|r.effects| - 3]
      && Started !in r.effects[|r.effects| - 2..]
  {
  }
}
